=== FILE: README.md ===
# Blog decision logic in Dafny

This project models the decision logic of a Django blog application and proves
properties of it. The logic covers:

- **Advertisement eligibility and selection.** The per-ad predicates of
  `Advertisement`, and the `show_ad` / `get_multiple_ads` template tags with
  their filter pipeline. This includes the category fallback, the weighted
  and sequential picks, the display-cap loop and the impression increments.
  Also modelled: the stricter `get_ad` tag, the click and impression tracking
  endpoints, and the home page's ad lists.
- **Breadcrumbs.** `BreadcrumbBuilder.auto_detect_from_url` derives a trail
  from the request path. `BreadcrumbMixin` resolves the links of a
  hand-written crumb list.
- **Canonical URLs.** The `advanced_canonical_url` context processor handles
  query clean-up, the language prefix and the AMP link.
  `SmartCanonicalMixin.get_canonical_url` handles the object URL, the
  whitelisted parameters and the fallbacks.
- **Posts, categories and social links.** Covered are:
  - slug de-duplication, and the meta and Open Graph defaults of
    `Blogs.save`
  - the `clean` validators
  - the canonical-URL precedence of a post
  - the reading-time estimate
  - `Category.save`
  - `SocialMedia.get_icon_class`
- **Newsletter and admin helpers.** The guard chains of
  `subscribe_newsletter` and `send_custom_newsletter`, plus the computed
  columns of the admin site.

The database is a sequence of immutable records. "Now" is an integer
timestamp. Django's router (`resolve`, `reverse`), `slugify`,
`build_absolute_uri`, `urlencode`, the object lookups and the outcome of
sending mail are function or value parameters. Random choices are
nondeterministic (`:|`). Strings are `seq<char>`. Python's `str.title()`,
`isdigit()` and `strip()` are modelled on ASCII.

Modules, one per file:

| file | module | models |
|---|---|---|
| basics.dfy | `Basics` | Option, Filter, Python string helpers (strip, split, join, title, replace, integer formatting) |
| ads.dfy | `Ads` | the `Advertisement` record, its predicates, counter updates, priority ordering |
| ad_selection.dfy | `AdSelection` | `blogs/templatetags/ads_tags.py`, `blogs/templatetags/ads_extras.py` |
| views.dfy | `Views` | tracking endpoints, home ads, newsletter views of `blogs/views.py` |
| breadcrumbs.dfy | `Breadcrumbs` | `blogs/utils/breadcrumbs.py` |
| mixins.dfy | `Mixins` | `blogs/mixins.py` |
| canonical.dfy | `Canonical` | `advanced_canonical_url` of `blogs/context_processors.py` |
| posts.dfy | `Posts` | `Blogs`, `Category`, `SocialMedia` of `blogs/models.py` |
| admin.dfy | `Admin` | the computed columns of `blogs/admin.py` |

Notes on the code as written:

- The URL names `post_detail` and `category_posts` appear in the breadcrumb
  title logic but are not defined by `blogs/urls.py`. The model keeps the
  logic for them, since the resolver is a parameter.
- `SmartCanonicalMixin.canonical_ignore_params` is never read.
- In `advanced_canonical_url` the `page=1` pass can never remove anything,
  because `"1"` is all digits and was removed one pass earlier
  (`Canonical.FirstPagePassIsIdle`).
- The site root `/` canonicalises to the path `//` (`Canonical.RootCanonicalPath`).

## Model

| member | source | states |
|---|---|---|
| Ads.IsCurrentlyActive | blogs/models.py:282-292 | active exactly when the flag is set, the start date is unset or not after now, the end date is unset or not before now (both bounds inclusive), and the display cap is 0 or not reached |
| Ads.TargetListHas | blogs/models.py:298 | the search of the target list succeeds iff some target has the category id |
| Ads.ShouldDisplayForCategory | blogs/models.py:294-298 | true iff the ad has no target categories or one of them has the id |
| Ads.FilterKeepsOrder | blogs/templatetags/ads_tags.py:28-40 | filtering a table keeps distinct ids and non-increasing priority |
| Ads.BumpById | blogs/views.py:228-230 | the row with that id gets one more on the chosen counter; every other row is unchanged; the length is kept |
| Ads.BumpEach | blogs/templatetags/ads_tags.py:97-99 | the increment loop keeps the table's length; its per-row effect is stated by Ads.BumpEachCounts and Ads.BumpEachUnique |
| Ads.BumpEachCounts | blogs/templatetags/ads_tags.py:96-99 | incrementing each picked ad in turn adds, per row, as many as the times its id was picked |
| Ads.CountIdUnique | blogs/templatetags/ads_tags.py:96-99 | with distinct ids an id is picked at most once |
| Ads.BumpEachUnique | blogs/templatetags/ads_tags.py:96-99 | with distinct picks, every picked row gets exactly one more impression and the others none |
| Ads.InsertByPriority | blogs/templatetags/ads_tags.py:25 | inserting adds exactly that ad to the multiset |
| Ads.InsertKeepsOrder | blogs/templatetags/ads_tags.py:25 | inserting into a priority-ordered list keeps it ordered |
| Ads.SortByPriority | blogs/templatetags/ads_tags.py:25 | the result is a permutation of the input with non-increasing priority |
| Ads.InsertKeepsUniqueIds | blogs/templatetags/ads_tags.py:73 | inserting an ad with a fresh id keeps ids distinct |
| Ads.SortKeepsUniqueIds | blogs/templatetags/ads_tags.py:73 | sorting keeps ids distinct |
| Ads.OrderByPriority | blogs/templatetags/ads_tags.py:73 | `order_by('-priority', '?')`: some permutation, same members, non-increasing priority, distinct ids kept |
| AdSelection.Query | blogs/templatetags/ads_tags.py:17-25 | an ad is kept iff it matches placement, is active, lies in the null-tolerant date window, and has the requested type when one is given |
| AdSelection.CategoryStage | blogs/templatetags/ads_tags.py:28-40 | with a truthy id, keeps the ads shown for the category; if none would be kept, or no truthy id was given, the list is unchanged; order and distinct ids kept |
| AdSelection.StageIsCandidates | blogs/templatetags/ads_tags.py:17-40 | the pipeline yields exactly the candidates described without the pipeline, whatever order the query returns |
| AdSelection.Weights | blogs/templatetags/ads_tags.py:134 | every weight is at least 1 and at least the priority; it equals the priority when that is positive and is exactly 1 otherwise |
| AdSelection.SelectWeighted | blogs/templatetags/ads_tags.py:128-137 | `None` iff the input is empty, otherwise a member of the input |
| AdSelection.SelectByStrategy | blogs/templatetags/ads_tags.py:103-126 | delegates to the weighted pick whatever the strategy: `None` iff empty, otherwise a member |
| AdSelection.SelectSequential | blogs/templatetags/ads_tags.py:139-145 | `None` iff empty, otherwise the first ad in input order with the fewest impressions |
| AdSelection.ShowAd | blogs/templatetags/ads_tags.py:10-57 | no ad iff there are no candidates, and then no change; otherwise a candidate, whose row alone gets one more impression; the display cap is not consulted |
| AdSelection.ShowAdIgnoresCap | blogs/templatetags/ads_tags.py:43-50 | in any table, a matching ad past its display cap that the category stage would keep is still a candidate, although not currently active |
| AdSelection.ScanUnderCap | blogs/templatetags/ads_tags.py:89-94 | the loop keeps the under-cap ads of the scanned prefix; it stops before the end only after a step that brings the picks to `count`, every earlier step having kept fewer; with `count <= 0` it scans at most one ad |
| AdSelection.TakeUnderCap | blogs/templatetags/ads_tags.py:89-94 | the picks are the under-cap ads of a scanned prefix; the scan stops early only once `count` picks are made, checks the cap before the count, and so looks at one candidate even when `count <= 0` |
| AdSelection.TakeUnderCapConsequences | blogs/templatetags/ads_tags.py:89-94 | the stopping rule implies at most `max(count, 1)` picks, that fewer than `count` picks are all under-cap ads, and the `count <= 0` case |
| AdSelection.PickedFromStage | blogs/templatetags/ads_tags.py:73-94 | the picks are under-cap candidates with distinct ids in priority order; fewer than `count` picks include every under-cap candidate |
| AdSelection.PicksOutrank | blogs/templatetags/ads_tags.py:89-95 | the scan keeps a prefix, so an under-cap candidate left out ranks no higher than any pick |
| AdSelection.PicksRank | blogs/templatetags/ads_tags.py:73-95 | against the candidate set: left-out under-cap candidates rank no higher than any pick; with `count <= 0` the pick is a top candidate, or there is none only because a top candidate is over its cap |
| AdSelection.GetMultipleAds | blogs/templatetags/ads_tags.py:60-101 | at most `max(count, 1)` distinct candidates, in priority order, which before the increment were under cap and currently active; no omitted candidate under its cap outranks a pick; each pick's row gets exactly one more impression, the others none; fewer than `count` means every under-cap candidate is included; since the cap is tested before the count, a `count` of zero or less serves a top candidate when it is under its cap, and otherwise nothing |
| AdSelection.HighestPriority | blogs/templatetags/ads_extras.py:30-33 | a member of maximal priority |
| AdSelection.GetAd | blogs/templatetags/ads_extras.py:10-45 | `""` and no change on a malformed category or when nothing matches (both dates set and bracketing now, targeted or untargeted); otherwise the code of a matching ad of maximal priority, whose row alone gets one more impression |
| Views.Track | blogs/views.py:223-245 | 405 for non-POST and 404 for an unknown id, both without change; otherwise success with the id and one more on that row's counter only |
| Views.RecordAdImpression | blogs/views.py:223-233 | success increments only the impressions of the rows with that id, by one; unknown id is a 404 without change |
| Views.RecordAdClick | blogs/views.py:235-245 | success increments only the clicks of the rows with that id, by one; unknown id is a 404 without change |
| Views.TrackChangesOneRow | blogs/views.py:228-230 | with distinct ids exactly one row changes |
| Views.HomeAds | blogs/views.py:42-59 | each list is a permutation of the table rows in its areas, active and in the null-tolerant date window, ordered by non-increasing priority; no cap test |
| Views.SubscribeNewsletter | blogs/views.py:340-389 | guards in order (method, stripped e-mail non-empty, not already subscribed ignoring case); success iff all pass, adding exactly one subscriber with the stripped e-mail and stripped name or `Subscriber`; mail outcome irrelevant |
| Views.SubscribeTwice | blogs/views.py:355-359 | repeating a successful subscription is refused and changes nothing |
| Views.SendCustomNewsletter | blogs/views.py:396-443 | each guard's answer occurs iff the earlier guards pass and it fails; `Sent` reports the subscriber count and needs a successful send |
| Breadcrumbs.Add | blogs/utils/breadcrumbs.py:16-19 | appends exactly one crumb with the given fields; earlier crumbs unchanged |
| Breadcrumbs.Humanize | blogs/utils/breadcrumbs.py:77 | same length, no hyphen left |
| Breadcrumbs.HumanizeChars | blogs/utils/breadcrumbs.py:50 | per character: hyphen becomes space, word-initial letters upper case, other letters lower case |
| Breadcrumbs.ComponentTitleCases | blogs/utils/breadcrumbs.py:38-67 | unresolved, or resolved to a route without a name, gives the humanized component; other names get their label, or the humanized component when unlabelled; a class-based post view gives the found post's title, else `Article`; a category page with `category` and an existing `category_id` gives the category's name, else `Category` |
| Breadcrumbs.PathComponents | blogs/utils/breadcrumbs.py:23 | at least one component, none containing `/` |
| Breadcrumbs.AccumulateJoin | blogs/utils/breadcrumbs.py:24-27 | the prefix after `n` components is `/` followed by those components joined with `/` |
| Breadcrumbs.FullPathAccumulated | blogs/utils/breadcrumbs.py:23-27 | after all components the accumulated path is the stripped request path with one leading slash |
| Breadcrumbs.CrumbAt | blogs/utils/breadcrumbs.py:69-72 | active iff last component; no link iff active; otherwise linked to its accumulated prefix |
| Breadcrumbs.TrailStep | blogs/utils/breadcrumbs.py:33-36 | a numeric component adds nothing; any other adds its crumb |
| Breadcrumbs.Emitting | blogs/utils/breadcrumbs.py:33-36 | every crumb position is a non-numeric component at or after the start |
| Breadcrumbs.EmittingIncreasing | blogs/utils/breadcrumbs.py:26-36 | the crumb positions come in strictly increasing order, as the loop visits them |
| Breadcrumbs.EmittingComplete | blogs/utils/breadcrumbs.py:33-36 | every non-numeric component at or after the start gets a crumb position |
| Breadcrumbs.EmittingLast | blogs/utils/breadcrumbs.py:74-80 | the last crumb position is the last component iff that component is not numeric |
| Breadcrumbs.TrailIsEmitting | blogs/utils/breadcrumbs.py:26-80 | crumb `m` is the crumb of the `m`-th non-numeric component |
| Breadcrumbs.TrailLinks | blogs/utils/breadcrumbs.py:70-72 | in a trail, no link exactly on the active crumb; every other crumb links to its own prefix |
| Breadcrumbs.TrailActive | blogs/utils/breadcrumbs.py:69-80 | at most as many crumbs as components; only the last crumb can be active |
| Breadcrumbs.TrailLastActive | blogs/utils/breadcrumbs.py:74-80 | the last crumb is active iff the last component is not numeric |
| Breadcrumbs.EmittingBound | blogs/utils/breadcrumbs.py:26-36 | no more crumb positions than components |
| Breadcrumbs.VisitComponent | blogs/utils/breadcrumbs.py:29-80 | one loop step raises iff the title lookup of a non-numeric component raises; otherwise adds that component's crumb unless numeric |
| Breadcrumbs.AutoDetectFromUrl | blogs/utils/breadcrumbs.py:21-82 | raises iff some non-numeric component's lookup raises; otherwise appends exactly the trail of the path |
| Breadcrumbs.WalkComponents | blogs/utils/breadcrumbs.py:26-80 | the loop appends the trail of the components, or reports the raising lookup |
| Breadcrumbs.Build | blogs/utils/breadcrumbs.py:84-85 | the collected crumbs, in the order added |
| Breadcrumbs.GetBreadcrumbs | blogs/context_processors.py:64-67 | a fresh builder yields exactly the trail of the path, unless a lookup raises |
| Mixins.ResolveBreadcrumbUrl | blogs/mixins.py:67-87 | no link for `None` or `""`; a string with `:` is reversed (failure gives none); other strings unchanged; a callable gives its result; other values passed through |
| Mixins.PlainLinkKept | blogs/mixins.py:78-80 | a plain link is kept whatever the route table |
| Mixins.ContextLinks | blogs/mixins.py:67-104 | a crumb has no link iff its entry is empty, a route name that does not reverse, or a callable that raises or returns nothing |
| Mixins.BreadcrumbContext | blogs/mixins.py:89-104 | one entry per crumb, same order and titles, each link resolved |
| Mixins.Put | blogs/mixins.py:37 | dictionary assignment: in place when the key exists, appended otherwise |
| Mixins.SelectedParams | blogs/mixins.py:33-37 | the whitelist loop keeps at most one parameter per whitelisted name; which ones is stated by Mixins.SelectedSound, Mixins.SelectedDistinct and Mixins.SelectedComplete |
| Mixins.SelectedSound | blogs/mixins.py:33-37 | every kept parameter is whitelisted, present in the request, with the request's value |
| Mixins.SelectedDistinct | blogs/mixins.py:33-37 | no parameter is kept twice |
| Mixins.SelectedComplete | blogs/mixins.py:33-37 | every whitelisted parameter present in the request is kept |
| Mixins.SelectedParamsEmpty | blogs/mixins.py:33-40 | nothing is kept iff no whitelisted parameter is present |
| Mixins.GetCanonicalUrl | blogs/mixins.py:14-46 | a non-empty object URL wins; a raising object lookup or a failed reversal gives the request path; otherwise the route or path info, with no query when nothing is kept |
| Mixins.CanonicalCarriesQuery | blogs/mixins.py:39-42 | when a whitelisted parameter is present, `?` and the encoded kept parameters follow the route or path |
| Canonical.Get | blogs/context_processors.py:35 | a found value belongs to the key; none means the key is absent |
| Canonical.FirstPagePassIsIdle | blogs/context_processors.py:30-36 | after the numeric pass the `page=1` pass changes nothing |
| Canonical.CleanQueryMembers | blogs/context_processors.py:24-36 | a parameter survives iff it was present, is not a tracking parameter, and its value is not all digits; `page=1` never survives |
| Canonical.UtmCampaignKept | blogs/context_processors.py:25-27 | `utm_campaign` with a non-numeric value survives |
| Canonical.CleanQueryIdempotent | blogs/context_processors.py:24-36 | cleaning twice equals cleaning once |
| Canonical.CanonicalPath | blogs/context_processors.py:45 | starts and ends with `/`, at least two characters |
| Canonical.CanonicalPathKeepsPath | blogs/context_processors.py:40-45 | without a foreign language prefix, the path is the stripped path between single slashes |
| Canonical.CanonicalPathDropsLanguage | blogs/context_processors.py:40-45 | any path whose stripped form is `<lang>/<rest>`, for a configured non-default language, becomes `/<rest>/`, whatever slashes `rest` holds |
| Canonical.CanonicalPathLanguageOnly | blogs/context_processors.py:40-45 | a path that is only a configured non-default language segment becomes `//` |
| Canonical.LanguageSlugShape | blogs/context_processors.py:38-45 | `/<lang>/<rest>/`, the shape of the `/ar/blog-title/` example, becomes `/<rest>/` for a configured non-default language |
| Canonical.RootCanonicalPath | blogs/context_processors.py:40-45 | the root path becomes `//` |
| Canonical.AmpStandardPath | blogs/context_processors.py:53-56 | `/amp/<rest>` without further `/amp/` maps to `/<rest>` |
| Canonical.AdvancedCanonicalUrl | blogs/context_processors.py:13-62 | the cleaned query is returned; `?` and the query follow the absolute canonical path only when parameters remain; the AMP link exists iff the path starts with `/amp/` |
| Canonical.NoQueryForTrackingOnly | blogs/context_processors.py:24-50 | a request with only tracking or numeric parameters gets no query string |
| Posts.CandidateInjective | blogs/models.py:155 | different counters give different alternative slugs |
| Posts.UniqueSlug | blogs/models.py:150-156 | the slug is free; it is the base when that is free, otherwise `base-k` for the least free `k >= 1` |
| Posts.FillDefaults | blogs/models.py:158-167 | empty meta fields become prefixes of title and short description of at most 70 and 300 characters; empty OG fields copy the defaulted meta fields; OG image copied only when a blog image exists; nothing else changes |
| Posts.FillDefaultsIdempotent | blogs/models.py:158-167 | saving twice fills nothing more |
| Posts.SavePost | blogs/models.py:149-169 | a set slug is kept; an empty one becomes the least free candidate derived from the title; then the defaults |
| Posts.SlugTrailingNewline | blogs/models.py:142 | the slug pattern accepts a valid slug with one trailing newline, but not with two |
| Posts.CleanPost | blogs/models.py:141-147 | valid iff slug empty or matching, meta title at most 70 and meta description at most 300; the first failing field is reported |
| Posts.DefaultsPassClean | blogs/models.py:158-161 | the save defaults never make a valid post invalid |
| Posts.AbsoluteUrl | blogs/models.py:171-173 | a URL iff the post is saved and has a slug |
| Posts.CanonicalUrl | blogs/models.py:175-180 | explicit override first, then the parent's URL, then the post's own |
| Posts.TranslationsShareCanonical | blogs/models.py:175-180 | translations of one saved original without overrides share its URL |
| Posts.RoundedMinutes | blogs/models.py:195 | `round(words / 200)`: within half a minute of the exact quotient, halves to even |
| Posts.ReadingMinutes | blogs/models.py:188-195 | at least one minute; the rounded value from 101 words on |
| Posts.ReadingMinutesMonotone | blogs/models.py:195 | more words never give fewer minutes |
| Posts.CleanCategory | blogs/models.py:73-77 | valid iff meta title at most 70 and meta description at most 300 characters |
| Posts.SaveCategory | blogs/models.py:63-68 | empty meta fields get the name-based title and description; others unchanged |
| Posts.SaveCategoryOverlongTitle | blogs/models.py:63-65 | a 50-character name gives a 72-character default title that `clean` rejects |
| Posts.SaveCategoryTitleBound | blogs/models.py:63-65 | the default title fits iff the name has at most 48 characters |
| Posts.SaveCategoryFixed | blogs/models.py:63-68 | as `save`, with the default title cut to 70 characters |
| Posts.SaveCategoryFixedClean | blogs/models.py:63-77 | with the cut, saving a valid category with a name of at most 50 characters keeps it valid |
| Posts.IconClass | blogs/models.py:400-417 | a configured class other than the placeholder wins, else the platform's class, else `fab fa-link`; never empty nor the placeholder |
| Admin.ShortComment | blogs/admin.py:139-141 | at most 50 characters unchanged; longer ones become the first 50 plus `...` (53 characters) |
| Admin.ShortCommentBound | blogs/admin.py:140 | at most 53 characters; shortening again only re-cuts to the same text |
| Admin.ViewOnSite | blogs/admin.py:91-98 | a link iff saved with a slug, to its `blog_detail` route |
| Admin.ViewOnSiteIsAbsoluteUrl | blogs/admin.py:95-98 | the admin link equals the post's absolute URL |
| Admin.TargetCategoriesList | blogs/admin.py:160-161 | `""` for no targets, otherwise starting with the first name |
| Admin.TargetCategoriesListLength | blogs/admin.py:161 | all names plus one `, ` between neighbours |
| Admin.TargetCategoriesListSnoc | blogs/admin.py:161 | one more target appends `, ` and its name |
| Admin.ReadingTimeColumn | blogs/admin.py:112-113 | a digit string followed by ` min` |
| Admin.ReadingTimeColumnRoundTrip | blogs/admin.py:113 | the number reads back from the column |
| Admin.ReadingTimeColumnNeverZero | blogs/admin.py:112-113 | a post's column never reads `0 min` |

## Left out

- Random distributions. The `'?'` ordering and the frequencies of
  `random.choices` cannot be stated as contracts; picks are nondeterministic
  choices.
- AdSelection.SelectWeighted: promises only membership and positive weights, not selection in proportion to the weights.
- Ads.OrderByPriority: ties in priority may come back in any order, as the random tie-break allows.
- AdSelection.ShowAd: returns the chosen record as it was before the increment; the updated row is in the returned table.
- AdSelection.GetMultipleAds: returns the picked records as they were before the increment; the updated rows are in the returned table. The source returns the incremented objects, so an ad one short of its cap comes back at its cap.
- AdSelection.GetAd: the only exception modelled is a category argument the query rejects. Database failures are not modelled.
- Django internals. `resolve`, `reverse`, `slugify`, `build_absolute_uri`,
  `urlencode`, `timezone.now`, settings and ORM querysets are parameters.
  The URL configuration is data for the resolver parameter.
- Posts.UniqueSlug: the 110-character limit of the slug column (blogs/models.py:85) is not modelled. A title may have 200 characters, so the slug or a `base-k` candidate can be longer than the column; the code does not check this, and what happens then depends on the database. Posts.SavePost inherits this.
- Posts.ReadingMinutes: the tag-stripping regex and the whitespace split are not modelled. The word count is a parameter.
- Python string semantics beyond ASCII: Unicode case mapping and Unicode digits.
- A `QueryDict` key with several values is seen through `items()`, which
  gives the last value. Multi-valued encoding is not modelled.
- Mixins.ResolveBreadcrumbUrl: a non-string, non-callable URL item is represented by its text.
- Mixins.GetCanonicalUrl: `build_absolute_uri` never raises; an object URL of `None` is the empty string.
- Breadcrumbs.AutoDetectFromUrl: an exception escaping the loop is reported as `raised`, without the partial trail.
- E-mail sending, template rendering and JSON/HTTP response objects. Only
  the status and the state change are modelled. The outcome of sending mail
  is a parameter.
- Concurrency of counter updates. Each increment is one sequential step.
- Nullable text fields are the empty string when unset, since the code only
  tests their truthiness.
- Wrappers and configuration. The other context processors, middleware,
  forms, dashboards, sitemaps and authentication views are not part of this
  model.

## Findings

| source | as written | input that shows it | evidently intended | confidence | as-written member | corrected member |
|---|---|---|---|---|---|---|
| blogs/models.py:63-65 | the default category meta title is the name plus ` - Articles & Insights` (22 characters), with no length cut | a category name of 49 or 50 characters (the column allows 50) gives a 71- or 72-character meta title, over the 70-character limit that `Category.clean` and the column enforce | a default meta title within 70 characters | not executed; high | Posts.SaveCategory (Posts.SaveCategoryOverlongTitle) | Posts.SaveCategoryFixed (Posts.SaveCategoryFixedClean) |

=== FILE: ad_selection.dfy ===
/**
 The ad template tags: `show_ad` and `get_multiple_ads` with their shared
 filter pipeline (placement / active / date window / ad type, then category
 targeting with a silent fallback), the selection helpers, and the stricter
 `get_ad` tag.

 Random choices (the `'?'` ordering, `random.choices`) are nondeterministic
 choices: the contracts promise membership, never a distribution.
 */
module AdSelection {
  import opened Basics
  import opened Ads

  // ---------------------------------------------------------------------------
  // The shared filter pipeline of show_ad / get_multiple_ads
  // ---------------------------------------------------------------------------

  /** The database filter: placement, active flag, null-tolerant date window, and
      the ad type when one is given (a truthy `ad_type`). */
  predicate MatchesQuery(a: Ad, placement: string, adType: Option<string>, now: int)
  {
    && a.placement == placement
    && a.isActive
    && Started(a, now)
    && NotEnded(a, now)
    && (TruthyText(adType) ==> a.adType == adType.value)
  }

  /** The rows the database filter keeps, in table order. */
  function Query(store: seq<Ad>, placement: string, adType: Option<string>, now: int): (r: seq<Ad>)
    ensures forall a :: a in r <==> a in store && MatchesQuery(a, placement, adType, now)
    ensures UniqueIds(store) ==> UniqueIds(r)
  {
    var q := (a: Ad) => MatchesQuery(a, placement, adType, now);
    FilterKeepsOrder(store, q);
    Filter(store, q)
  }

  /** The category filter keeps everything: no truthy category id was given, or
      no ad of `xs` would be displayed for it. */
  predicate NoCategoryMatch(xs: seq<Ad>, cat: Option<int>)
  {
    !TruthyId(cat) || forall b :: b in xs ==> !ShouldDisplayForCategory(b, cat.value)
  }

  /**
   The category stage: with a truthy category id, keep the ads that should be
   displayed for it, unless that keeps nothing, in which case the list is left
   as it was.
   */
  function CategoryStage(xs: seq<Ad>, cat: Option<int>): (r: seq<Ad>)
    ensures forall a :: a in r <==> a in xs && (NoCategoryMatch(xs, cat) || ShouldDisplayForCategory(a, cat.value))
    ensures NoCategoryMatch(xs, cat) ==> r == xs
    ensures UniqueIds(xs) ==> UniqueIds(r)
    ensures ByPriority(xs) ==> ByPriority(r)
  {
    if TruthyId(cat) && |xs| > 0 then
      var p := (a: Ad) => ShouldDisplayForCategory(a, cat.value);
      var kept := Filter(xs, p);
      FilterKeepsOrder(xs, p);
      assert |kept| > 0 <==> !NoCategoryMatch(xs, cat) by {
        if |kept| > 0 {
          assert kept[0] in kept;
        }
      }
      if |kept| > 0 then kept else xs
    else xs
  }

  /**
   The ads `show_ad` and `get_multiple_ads` choose from, described without the
   pipeline: an ad of the table passing the database filter that, unless the
   category fallback applies, should be displayed for the category.
   */
  ghost predicate InCandidates(a: Ad, store: seq<Ad>, placement: string, cat: Option<int>, adType: Option<string>, now: int)
  {
    && a in store
    && MatchesQuery(a, placement, adType, now)
    && (|| !TruthyId(cat)
        || (forall b :: b in store && MatchesQuery(b, placement, adType, now) ==> !ShouldDisplayForCategory(b, cat.value))
        || ShouldDisplayForCategory(a, cat.value))
  }

  /** Whatever order the filtered rows come in, the category stage yields the candidates. */
  lemma StageIsCandidates(xs: seq<Ad>, store: seq<Ad>, placement: string, cat: Option<int>, adType: Option<string>, now: int)
    requires forall a :: a in xs <==> a in store && MatchesQuery(a, placement, adType, now)
    ensures forall a :: a in CategoryStage(xs, cat) <==> InCandidates(a, store, placement, cat, adType, now)
  {
  }

  // ---------------------------------------------------------------------------
  // Selection helpers
  // ---------------------------------------------------------------------------

  /** The weights `max(priority, 1)` handed to `random.choices`. */
  function Weights(ads: seq<Ad>): (w: seq<int>)
    ensures |w| == |ads|
    ensures forall i :: 0 <= i < |ads| ==> w[i] >= 1 && w[i] >= ads[i].priority
    ensures forall i :: 0 <= i < |ads| && ads[i].priority >= 1 ==> w[i] == ads[i].priority
    ensures forall i :: 0 <= i < |ads| && ads[i].priority < 1 ==> w[i] == 1
  {
    seq(|ads|, i requires 0 <= i < |ads| => Max(ads[i].priority, 1))
  }

  /** `select_weighted_ad`: some ad of positive weight, and every weight is positive. */
  method SelectWeighted(ads: seq<Ad>) returns (r: Option<Ad>)
    ensures r.None? <==> |ads| == 0
    ensures r.Some? ==> r.value in ads
  {
    if |ads| == 0 {
      return None;
    }
    var w := Weights(ads);
    assert w[0] > 0;
    var i :| 0 <= i < |ads| && w[i] > 0;
    r := Some(ads[i]);
  }

  /** `select_ad_by_strategy`: the live code always delegates to the weighted
      pick, whatever the ads' `display_strategy` is. */
  method SelectByStrategy(ads: seq<Ad>) returns (r: Option<Ad>)
    ensures r.None? <==> |ads| == 0
    ensures r.Some? ==> r.value in ads
  {
    r := SelectWeighted(ads);
  }

  /** `ads[k]` has the fewest impressions, and no earlier ad has as few. */
  ghost predicate FirstLeastShown(ads: seq<Ad>, k: nat)
    requires k < |ads|
  {
    && (forall j :: 0 <= j < |ads| ==> ads[k].impressions <= ads[j].impressions)
    && (forall j :: 0 <= j < k ==> ads[j].impressions > ads[k].impressions)
  }

  /** `select_sequential_ad`: the head of a stable sort by impressions. */
  method SelectSequential(ads: seq<Ad>) returns (r: Option<Ad>)
    ensures r.None? <==> |ads| == 0
    ensures r.Some? ==> exists k :: 0 <= k < |ads| && ads[k] == r.value && FirstLeastShown(ads, k)
  {
    if |ads| == 0 {
      return None;
    }
    var best := 0;
    var i := 1;
    while i < |ads|
      invariant 1 <= i <= |ads|
      invariant 0 <= best < i
      invariant forall j :: 0 <= j < i ==> ads[best].impressions <= ads[j].impressions
      invariant forall j :: 0 <= j < best ==> ads[j].impressions > ads[best].impressions
    {
      if ads[i].impressions < ads[best].impressions {
        best := i;
      }
      i := i + 1;
    }
    assert FirstLeastShown(ads, best);
    r := Some(ads[best]);
  }

  // ---------------------------------------------------------------------------
  // show_ad
  // ---------------------------------------------------------------------------

  /**
   `show_ad`: one ad picked from the candidates, or none when there are none;
   the chosen row gets one more impression. The display cap is never looked
   at. The priority ordering of the source is skipped here: the pick may be any
   candidate, so the order cannot matter. The ad is returned as it was before
   the increment; the updated row is in `store'`.
   */
  method ShowAd(store: seq<Ad>, placement: string, cat: Option<int>, adType: Option<string>, now: int)
    returns (shown: Option<Ad>, store': seq<Ad>)
    ensures shown.None? <==> forall a :: !InCandidates(a, store, placement, cat, adType, now)
    ensures shown.None? ==> store' == store
    ensures shown.Some? ==> InCandidates(shown.value, store, placement, cat, adType, now)
    ensures shown.Some? ==> store' == BumpById(store, shown.value.id, Impressions)
  {
    var available := Query(store, placement, adType, now);
    available := CategoryStage(available, cat);
    StageIsCandidates(Query(store, placement, adType, now), store, placement, cat, adType, now);
    if |available| == 0 {
      return None, store;
    }
    assert available[0] in available;
    shown := SelectByStrategy(available);
    store' := BumpById(store, shown.value.id, Impressions);
  }

  /** `show_ad` can return an ad whose display cap is used up: in any table, an
      active ad in its date window whose cap is reached is still a candidate
      whenever its category stage would keep it. */
  lemma ShowAdIgnoresCap(a: Ad, store: seq<Ad>, cat: Option<int>, adType: Option<string>, now: int)
    requires a in store && MatchesQuery(a, a.placement, adType, now)
    requires !TruthyId(cat) || ShouldDisplayForCategory(a, cat.value)
    requires a.maxDisplayCount > 0 && a.impressions >= a.maxDisplayCount
    ensures InCandidates(a, store, a.placement, cat, adType, now)
    ensures !IsCurrentlyActive(a, now)
  {
  }

  // ---------------------------------------------------------------------------
  // get_multiple_ads
  // ---------------------------------------------------------------------------

  /**
   The display-limit loop of `get_multiple_ads`, over the kept prefix: scan
   the candidates, keep the ones under their cap, and stop right after the
   step at which `count` are kept.
   */
  method ScanUnderCap(xs: seq<Ad>, count: int) returns (picked: seq<Ad>, scanned: nat)
    ensures scanned <= |xs|
    ensures picked == FilterPrefix(xs, UnderCap, scanned)
    ensures scanned < |xs| ==> 1 <= scanned && |picked| >= count
    ensures scanned >= 2 ==> CountKept(xs, UnderCap, scanned - 1) < count
    ensures count <= 0 ==> scanned <= 1
  {
    picked := [];
    scanned := 0;
    while scanned < |xs| && (scanned == 0 || |picked| < count)
      invariant scanned <= |xs|
      invariant picked == FilterPrefix(xs, UnderCap, scanned)
      invariant scanned >= 2 ==> CountKept(xs, UnderCap, scanned - 1) < count
      invariant count <= 0 ==> scanned <= 1
    {
      picked := picked + (if UnderCap(xs[scanned]) then [xs[scanned]] else []);
      scanned := scanned + 1;
    }
  }

  /**
   The display-limit loop of `get_multiple_ads`: the picks are the candidates
   under their cap among the first `scanned`, and the scan stops right after
   the step at which `count` are kept. Because the length test follows the
   append, a `count` of zero or less stops after the first candidate.
   */
  method TakeUnderCap(xs: seq<Ad>, count: int) returns (picked: seq<Ad>, scanned: nat)
    ensures scanned <= |xs|
    ensures picked == Filter(xs[..scanned], UnderCap)
    ensures scanned < |xs| ==> 1 <= scanned && |picked| >= count
    ensures scanned >= 2 ==> CountKept(xs, UnderCap, scanned - 1) < count
    ensures count <= 0 ==> scanned <= 1
  {
    picked, scanned := ScanUnderCap(xs, count);
    FilterPrefixIsFilter(xs, UnderCap, scanned);
  }

  /** What the stopping rule of the display-limit loop implies: at most
      `max(count, 1)` picks; fewer than `count` means every candidate under its
      cap was picked; a `count` of zero or less picks at most the first one. */
  lemma {:induction false} TakeUnderCapConsequences(xs: seq<Ad>, count: int, picked: seq<Ad>, scanned: nat)
    requires scanned <= |xs|
    requires picked == Filter(xs[..scanned], UnderCap)
    requires scanned < |xs| ==> 1 <= scanned && |picked| >= count
    requires scanned >= 2 ==> CountKept(xs, UnderCap, scanned - 1) < count
    requires count <= 0 ==> scanned <= 1
    ensures |picked| <= Max(count, 1)
    ensures |picked| < count ==> picked == Filter(xs, UnderCap)
    ensures count <= 0 && |xs| > 0 ==> picked == if UnderCap(xs[0]) then [xs[0]] else []
  {
    if scanned == |xs| {
      assert xs[..scanned] == xs;
    }
    FilterPrefixIsFilter(xs, UnderCap, scanned);
    CountKeptStop(xs, UnderCap, count, scanned);
    if count <= 0 && |xs| > 0 {
      FilterFirst(xs, UnderCap);
    }
  }

  /** The picks are candidates under their cap, keep the priority order and
      distinct ids of the candidates, and include every candidate under its
      cap when fewer than `count` were picked. */
  lemma PickedFromStage(staged: seq<Ad>, count: int, picked: seq<Ad>, scanned: nat)
    requires UniqueIds(staged) && ByPriority(staged)
    requires scanned <= |staged| && picked == Filter(staged[..scanned], UnderCap)
    requires |picked| < count ==> picked == Filter(staged, UnderCap)
    ensures forall i :: 0 <= i < |picked| ==> picked[i] in staged && UnderCap(picked[i])
    ensures UniqueIds(picked) && ByPriority(picked)
    ensures |picked| < count ==> forall a :: a in staged && UnderCap(a) ==> a in picked
  {
    var prefix := staged[..scanned];
    assert UniqueIds(prefix) && ByPriority(prefix);
    FilterKeepsOrder(prefix, UnderCap);
    forall i | 0 <= i < |picked|
      ensures picked[i] in staged && UnderCap(picked[i])
    {
      assert picked[i] in picked;
      assert picked[i] in prefix;
    }
  }

  /** The scan stops at the first `scanned` candidates, so a candidate under its
      cap that was left out ranks no higher than any pick. */
  lemma {:induction false} PicksOutrank(staged: seq<Ad>, picked: seq<Ad>, scanned: nat)
    requires ByPriority(staged)
    requires scanned <= |staged| && picked == Filter(staged[..scanned], UnderCap)
    ensures forall a, i :: a in staged && UnderCap(a) && a !in picked && 0 <= i < |picked| ==>
      a.priority <= picked[i].priority
  {
    var prefix := staged[..scanned];
    forall a, i | a in staged && UnderCap(a) && a !in picked && 0 <= i < |picked|
      ensures a.priority <= picked[i].priority
    {
      var ka :| 0 <= ka < |staged| && staged[ka] == a;
      assert picked[i] in picked;
      var ki :| 0 <= ki < scanned && prefix[ki] == picked[i];
      assert ka >= scanned;
    }
  }

  /** A candidate no other candidate outranks. */
  ghost predicate IsTopCandidate(a: Ad, store: seq<Ad>, placement: string, cat: Option<int>, adType: Option<string>, now: int)
  {
    && InCandidates(a, store, placement, cat, adType, now)
    && forall b :: InCandidates(b, store, placement, cat, adType, now) ==> b.priority <= a.priority
  }

  /** With a `count` of zero or less the scan looks only at the first staged
      ad, which is a top candidate: it is picked when under its cap, and
      otherwise nothing is. */
  lemma {:induction false} ZeroCountPicksTop(staged: seq<Ad>, store: seq<Ad>, placement: string, cat: Option<int>, adType: Option<string>, now: int, count: int, picked: seq<Ad>)
    requires ByPriority(staged)
    requires forall a :: a in staged <==> InCandidates(a, store, placement, cat, adType, now)
    requires count <= 0 && |staged| > 0 ==> picked == if UnderCap(staged[0]) then [staged[0]] else []
    requires count <= 0 && |staged| == 0 ==> picked == []
    ensures count <= 0 ==> forall i :: 0 <= i < |picked| ==> IsTopCandidate(picked[i], store, placement, cat, adType, now)
    ensures count <= 0 && |picked| == 0 && (exists a :: InCandidates(a, store, placement, cat, adType, now)) ==>
      exists a :: IsTopCandidate(a, store, placement, cat, adType, now) && !UnderCap(a)
  {
    if count <= 0 && |staged| > 0 {
      var top := staged[0];
      assert IsTopCandidate(top, store, placement, cat, adType, now) by {
        forall b | InCandidates(b, store, placement, cat, adType, now)
          ensures b.priority <= top.priority
        {
          assert b in staged;
          var k :| 0 <= k < |staged| && staged[k] == b;
          assert k == 0 || staged[0].priority >= staged[k].priority;
        }
      }
    }
  }

  /** How the picks rank among all candidates: a candidate under its cap that
      was left out ranks no higher than any pick, and a `count` of zero or less
      picks a top candidate or nothing, the latter only when a top candidate is
      over its cap. */
  lemma PicksRank(staged: seq<Ad>, store: seq<Ad>, placement: string, cat: Option<int>, adType: Option<string>, now: int,
                  count: int, picked: seq<Ad>, scanned: nat)
    requires ByPriority(staged)
    requires forall a :: a in staged <==> InCandidates(a, store, placement, cat, adType, now)
    requires scanned <= |staged| && picked == Filter(staged[..scanned], UnderCap)
    requires count <= 0 && |staged| > 0 ==> picked == if UnderCap(staged[0]) then [staged[0]] else []
    ensures forall a, i :: (InCandidates(a, store, placement, cat, adType, now) && UnderCap(a) && a !in picked &&
                            0 <= i < |picked|) ==> a.priority <= picked[i].priority
    ensures count <= 0 ==> forall i :: 0 <= i < |picked| ==> IsTopCandidate(picked[i], store, placement, cat, adType, now)
    ensures count <= 0 && |picked| == 0 && (exists a :: InCandidates(a, store, placement, cat, adType, now)) ==>
      exists a :: IsTopCandidate(a, store, placement, cat, adType, now) && !UnderCap(a)
  {
    PicksOutrank(staged, picked, scanned);
    if |staged| == 0 {
      assert picked == [];
    }
    ZeroCountPicksTop(staged, store, placement, cat, adType, now, count, picked);
  }

  /** What the display-limit scan over the staged candidates picks, stated
      against the candidates themselves. */
  lemma PicksOfScan(staged: seq<Ad>, store: seq<Ad>, placement: string, cat: Option<int>, adType: Option<string>, now: int,
                    count: int, picked: seq<Ad>, scanned: nat)
    requires UniqueIds(staged) && ByPriority(staged)
    requires forall a :: a in staged <==> InCandidates(a, store, placement, cat, adType, now)
    requires scanned <= |staged|
    requires picked == Filter(staged[..scanned], UnderCap)
    requires scanned < |staged| ==> 1 <= scanned && |picked| >= count
    requires scanned >= 2 ==> CountKept(staged, UnderCap, scanned - 1) < count
    requires count <= 0 ==> scanned <= 1
    ensures |picked| <= Max(count, 1)
    ensures count <= 0 ==> |picked| <= 1
    ensures (count <= 0 && (exists a :: InCandidates(a, store, placement, cat, adType, now)) &&
             (forall a :: InCandidates(a, store, placement, cat, adType, now) ==> UnderCap(a)))
      ==> |picked| == 1
    ensures forall i :: 0 <= i < |picked| ==> InCandidates(picked[i], store, placement, cat, adType, now) && UnderCap(picked[i])
    ensures forall i :: 0 <= i < |picked| ==> IsCurrentlyActive(picked[i], now)
    ensures ByPriority(picked) && UniqueIds(picked)
    ensures |picked| < count ==>
      forall a :: InCandidates(a, store, placement, cat, adType, now) && UnderCap(a) ==> a in picked
    ensures forall a, i :: (InCandidates(a, store, placement, cat, adType, now) && UnderCap(a) && a !in picked &&
                            0 <= i < |picked|) ==> a.priority <= picked[i].priority
    ensures count <= 0 ==> forall i :: 0 <= i < |picked| ==> IsTopCandidate(picked[i], store, placement, cat, adType, now)
    ensures count <= 0 && |picked| == 0 && (exists a :: InCandidates(a, store, placement, cat, adType, now)) ==>
      exists a :: IsTopCandidate(a, store, placement, cat, adType, now) && !UnderCap(a)
  {
    TakeUnderCapConsequences(staged, count, picked, scanned);
    PickedFromStage(staged, count, picked, scanned);
    PicksRank(staged, store, placement, cat, adType, now, count, picked, scanned);
    if count <= 0 && (exists a :: InCandidates(a, store, placement, cat, adType, now)) &&
       (forall a :: InCandidates(a, store, placement, cat, adType, now) ==> UnderCap(a)) {
      var a :| InCandidates(a, store, placement, cat, adType, now);
      assert a in staged;
      assert staged[0] in staged;
    }
  }

  /**
   `get_multiple_ads`: at most `max(count, 1)` candidates under their display
   cap, in priority order, each counted once more; every other row unchanged.
   When fewer than `count` come back, every candidate under its cap is among
   them. The cap is tested before the count, so a `count` of zero or less
   still serves the first candidate when it is under its cap. The ads are
   returned as they were before the increment.
   */
  method GetMultipleAds(store: seq<Ad>, placement: string, count: int, cat: Option<int>, adType: Option<string>, now: int)
    returns (picked: seq<Ad>, store': seq<Ad>)
    requires UniqueIds(store)
    ensures |picked| <= Max(count, 1)
    ensures count <= 0 ==> |picked| <= 1
    ensures (count <= 0 && (exists a :: InCandidates(a, store, placement, cat, adType, now)) &&
             (forall a :: InCandidates(a, store, placement, cat, adType, now) ==> UnderCap(a)))
      ==> |picked| == 1
    ensures forall i :: 0 <= i < |picked| ==> InCandidates(picked[i], store, placement, cat, adType, now) && UnderCap(picked[i])
    ensures forall i :: 0 <= i < |picked| ==> IsCurrentlyActive(picked[i], now)
    ensures ByPriority(picked) && UniqueIds(picked)
    ensures |picked| < count ==>
      forall a :: InCandidates(a, store, placement, cat, adType, now) && UnderCap(a) ==> a in picked
    ensures forall a, i :: (InCandidates(a, store, placement, cat, adType, now) && UnderCap(a) && a !in picked &&
                            0 <= i < |picked|) ==> a.priority <= picked[i].priority
    ensures count <= 0 ==> forall i :: 0 <= i < |picked| ==> IsTopCandidate(picked[i], store, placement, cat, adType, now)
    ensures count <= 0 && |picked| == 0 && (exists a :: InCandidates(a, store, placement, cat, adType, now)) ==>
      exists a :: IsTopCandidate(a, store, placement, cat, adType, now) && !UnderCap(a)
    ensures |store'| == |store|
    ensures forall j :: 0 <= j < |store| ==>
      store'[j] == if HasId(picked, store[j].id) then Bump(store[j], Impressions) else store[j]
  {
    var ordered := OrderByPriority(Query(store, placement, adType, now));
    var staged := CategoryStage(ordered, cat);
    StageIsCandidates(ordered, store, placement, cat, adType, now);
    var scanned;
    picked, scanned := TakeUnderCap(staged, count);
    PicksOfScan(staged, store, placement, cat, adType, now, count, picked, scanned);
    store' := BumpEach(store, picked, Impressions);
    BumpEachUnique(store, picked, Impressions);
  }

  // ---------------------------------------------------------------------------
  // get_ad (ads_extras)
  // ---------------------------------------------------------------------------

  /** The category argument of `get_ad`: an id the database accepts, or a value
      that makes the query raise. */
  datatype CategoryArg = CategoryId(id: int) | Malformed

  /** The stricter filter of `get_ad`: both dates must be set and bracket `now`,
      and the ad targets the category or has no targets. */
  predicate GetAdMatches(a: Ad, placement: string, cid: int, now: int)
  {
    && a.isActive
    && a.placement == placement
    && a.startDate.Some? && a.startDate.value <= now
    && a.endDate.Some? && a.endDate.value >= now
    && (Targets(a, cid) || |a.targets| == 0)
  }

  /** An ad of maximal priority. */
  function HighestPriority(xs: seq<Ad>): (r: Ad)
    requires |xs| > 0
    ensures r in xs
    ensures forall b :: b in xs ==> b.priority <= r.priority
  {
    if |xs| == 1 then xs[0]
    else
      var rest := HighestPriority(xs[1..]);
      assert xs == [xs[0]] + xs[1..];
      if xs[0].priority >= rest.priority then xs[0] else rest
  }

  /** `a` is a matching ad of maximal priority among the matching rows. */
  ghost predicate IsTopMatch(a: Ad, store: seq<Ad>, placement: string, cid: int, now: int)
  {
    && a in store
    && GetAdMatches(a, placement, cid, now)
    && forall b :: b in store && GetAdMatches(b, placement, cid, now) ==> b.priority <= a.priority
  }

  /**
   `get_ad`: the ad code of a highest-priority matching ad, whose row gets one
   more impression; `""` and no change when nothing matches or the query raises.
   Ties in priority come back in database order, modelled as any of them.
   */
  method GetAd(store: seq<Ad>, placement: string, cat: CategoryArg, now: int) returns (code: string, store': seq<Ad>)
    ensures cat.Malformed? ==> code == "" && store' == store
    ensures cat.CategoryId? && (forall a :: a in store ==> !GetAdMatches(a, placement, cat.id, now)) ==>
      code == "" && store' == store
    ensures cat.CategoryId? && (exists a :: a in store && GetAdMatches(a, placement, cat.id, now)) ==>
      exists a :: IsTopMatch(a, store, placement, cat.id, now) && code == a.adCode && store' == BumpById(store, a.id, Impressions)
  {
    if cat.Malformed? {
      return "", store;
    }
    var matches := (a: Ad) => GetAdMatches(a, placement, cat.id, now);
    var filtered := Filter(store, matches);
    if |filtered| == 0 {
      assert forall a :: a in store ==> !GetAdMatches(a, placement, cat.id, now) by {
        assert forall a :: a in store && matches(a) ==> a in filtered;
      }
      return "", store;
    }
    var top := HighestPriority(filtered);
    code := top.adCode;
    store' := BumpById(store, top.id, Impressions);
    assert IsTopMatch(top, store, placement, cat.id, now) by {
      assert forall b :: b in store && matches(b) ==> b in filtered;
    }
  }
}

=== FILE: admin.dfy ===
/**
 The computed columns and links of the admin site: the shortened comment
 text, the "view on site" link of a post, the list of an advertisement's
 target categories, and the reading-time column.
 */
module Admin {
  import opened Basics
  import opened Posts

  const CommentPreview := 50

  /** `CommentAdmin.short_comment`: the first 50 characters, with `...` appended
      only when something was cut. */
  function ShortComment(comment: string): (r: string)
    ensures |comment| <= CommentPreview ==> r == comment
    ensures |comment| > CommentPreview ==> |r| == CommentPreview + 3 && EndsWith(r, "...")
    ensures StartsWith(r, Take(comment, CommentPreview)) && StartsWith(comment, Take(r, CommentPreview))
  {
    comment[..if |comment| <= CommentPreview then |comment| else CommentPreview] +
      (if |comment| > CommentPreview then "..." else "")
  }

  /** A shortened comment is never longer than 53 characters, and shortening
      it again changes nothing more than the `...` already there. */
  lemma ShortCommentBound(comment: string)
    ensures |ShortComment(comment)| <= CommentPreview + 3
    ensures |comment| > CommentPreview ==>
      ShortComment(ShortComment(comment)) == comment[..CommentPreview] + "..."
  {
    if |comment| > CommentPreview {
      var r := ShortComment(comment);
      assert r == comment[..CommentPreview] + "...";
      assert r[..CommentPreview] == comment[..CommentPreview];
    }
  }

  /** `BlogsAdmin.view_on_site`: the post's `blog_detail` link, only for a saved
      post with a slug. */
  function ViewOnSite(pk: Option<int>, slug: string, blogDetail: string -> string): (r: Option<string>)
    ensures r.Some? <==> pk.Some? && pk.value != 0 && slug != ""
    ensures r.Some? ==> r.value == blogDetail(slug)
  {
    if pk.Some? && pk.value != 0 && slug != "" then Some(blogDetail(slug)) else None
  }

  /** The admin link is the post's own absolute URL. */
  lemma ViewOnSiteIsAbsoluteUrl(pk: Option<int>, slug: string, blogDetail: string -> string)
    ensures ViewOnSite(pk, slug, blogDetail) == AbsoluteUrl(pk, slug, blogDetail)
  {
  }

  /** `AdvertisementAdmin.target_categories_list`: the names joined with `, `. */
  function TargetCategoriesList(names: seq<string>): (r: string)
    ensures |names| == 0 ==> r == ""
    ensures |names| >= 1 ==> StartsWith(r, names[0])
  {
    Join(names, ", ")
  }

  function TotalLength(names: seq<string>): nat
  {
    if |names| == 0 then 0 else |names[0]| + TotalLength(names[1..])
  }

  /** The list holds every name and one `, ` between neighbours, nothing else. */
  lemma {:induction false} TargetCategoriesListLength(names: seq<string>)
    requires |names| >= 1
    ensures |TargetCategoriesList(names)| == TotalLength(names) + 2 * (|names| - 1)
  {
    if |names| > 1 {
      TargetCategoriesListLength(names[1..]);
    }
  }

  /** Adding a target category appends `, ` and its name at the end. */
  lemma TargetCategoriesListSnoc(names: seq<string>, name: string)
    requires |names| >= 1
    ensures TargetCategoriesList(names + [name]) == TargetCategoriesList(names) + ", " + name
  {
    JoinSnoc(names, name, ", ");
  }

  const MinuteSuffix := " min"

  /** `BlogsAdmin.estimated_reading_time`: `f"{n} min"`. */
  function ReadingTimeColumn(minutes: nat): (r: string)
    ensures EndsWith(r, MinuteSuffix)
    ensures IsDigits(r[..|r| - |MinuteSuffix|])
  {
    var r := NatToString(minutes) + MinuteSuffix;
    assert r[..|r| - |MinuteSuffix|] == NatToString(minutes);
    r
  }

  /** The number can be read back from the column, so different estimates show
      differently. */
  lemma ReadingTimeColumnRoundTrip(minutes: nat)
    ensures var r := ReadingTimeColumn(minutes);
      ParseDigits(r[..|r| - |MinuteSuffix|]) == minutes
  {
    var r := ReadingTimeColumn(minutes);
    assert r[..|r| - |MinuteSuffix|] == NatToString(minutes);
    ParseNatToString(minutes);
  }

  /** A post's column never reads `0 min`: the estimate is at least one minute. */
  lemma ReadingTimeColumnNeverZero(words: nat)
    ensures ReadingTimeColumn(ReadingMinutes(words)) != "0" + MinuteSuffix
  {
    ReadingTimeColumnRoundTrip(ReadingMinutes(words));
    ReadingTimeColumnRoundTrip(0);
  }
}

=== FILE: ads.dfy ===
/**
 The advertisement record of the blog and the per-ad predicates the selection
 code is built from: the active/date-window/display-cap tests, category
 targeting, the table of ads with its counter updates, and the
 "highest priority first" ordering.

 Times are integer timestamps; the advertisement table is a sequence of rows
 whose ids are unique (they are primary keys).
 */
module Ads {
  import opened Basics

  /** The `display_strategy` choices of an ad. */
  datatype Strategy = Random | Weighted | Sequential | CategoryMatch

  /** A target category as the ad's many-to-many relation exposes it. */
  datatype CategoryRef = CategoryRef(id: int, name: string)

  datatype Ad = Ad(
    id: int,
    name: string,
    adType: string,
    isActive: bool,
    placement: string,
    strategy: Strategy,
    targets: seq<CategoryRef>,
    maxDisplayCount: nat,      // 0 means unlimited
    adCode: string,
    priority: int,             // higher is more important
    startDate: Option<int>,    // None: no lower bound
    endDate: Option<int>,      // None: no upper bound
    impressions: nat,
    clicks: nat)

  // ---------------------------------------------------------------------------
  // Per-ad predicates
  // ---------------------------------------------------------------------------

  /** The start date is unset or not after `now` (inclusive bound). */
  predicate Started(a: Ad, now: int)
  {
    a.startDate.None? || a.startDate.value <= now
  }

  /** The end date is unset or not before `now` (inclusive bound). */
  predicate NotEnded(a: Ad, now: int)
  {
    a.endDate.None? || a.endDate.value >= now
  }

  /** The display cap is unlimited or not yet reached. */
  predicate UnderCap(a: Ad)
  {
    a.maxDisplayCount == 0 || a.impressions < a.maxDisplayCount
  }

  /**
   `Advertisement.is_currently_active`: a chain of early `False` returns for
   the inactive flag, a future start, a past end and a reached cap.
   */
  function IsCurrentlyActive(a: Ad, now: int): (r: bool)
    ensures r <==> a.isActive && Started(a, now) && NotEnded(a, now) && UnderCap(a)
  {
    if !a.isActive then false
    else if a.startDate.Some? && a.startDate.value > now then false
    else if a.endDate.Some? && a.endDate.value < now then false
    else if a.maxDisplayCount > 0 && a.impressions >= a.maxDisplayCount then false
    else true
  }

  /** Some target of the ad has the category id `cid`. */
  predicate Targets(a: Ad, cid: int)
  {
    exists k :: 0 <= k < |a.targets| && a.targets[k].id == cid
  }

  /** Linear search of a target list for a category id. */
  function TargetListHas(ts: seq<CategoryRef>, cid: int): (r: bool)
    ensures r <==> exists k :: 0 <= k < |ts| && ts[k].id == cid
  {
    if |ts| == 0 then false
    else if ts[0].id == cid then true
    else
      var r := TargetListHas(ts[1..], cid);
      assert forall k :: 1 <= k < |ts| ==> ts[k] == ts[1..][k - 1];
      r
  }

  /** `Advertisement.should_display_for_category`. */
  function ShouldDisplayForCategory(a: Ad, cid: int): (r: bool)
    ensures r <==> |a.targets| == 0 || Targets(a, cid)
  {
    if |a.targets| == 0 then true else TargetListHas(a.targets, cid)
  }

  /** Python truthiness of an optional category id (`None` and `0` are false). */
  predicate TruthyId(c: Option<int>)
  {
    c.Some? && c.value != 0
  }

  /** Python truthiness of an optional text (`None` and `""` are false). */
  predicate TruthyText(t: Option<string>)
  {
    t.Some? && t.value != ""
  }

  // ---------------------------------------------------------------------------
  // The table of ads and its counters
  // ---------------------------------------------------------------------------

  /** No two rows of a table share an id. */
  ghost predicate UniqueIds(xs: seq<Ad>)
  {
    forall i, j :: 0 <= i < j < |xs| ==> xs[i].id != xs[j].id
  }

  /** Non-increasing priority: the `order_by('-priority')` order. */
  ghost predicate ByPriority(xs: seq<Ad>)
  {
    forall i, j :: 0 <= i < j < |xs| ==> xs[i].priority >= xs[j].priority
  }

  /** Both table properties are pairwise relations, so filtering keeps them. */
  lemma FilterKeepsOrder(xs: seq<Ad>, p: Ad -> bool)
    ensures UniqueIds(xs) ==> UniqueIds(Filter(xs, p))
    ensures ByPriority(xs) ==> ByPriority(Filter(xs, p))
  {
    var distinct := (a: Ad, b: Ad) => a.id != b.id;
    var ordered := (a: Ad, b: Ad) => a.priority >= b.priority;
    if UniqueIds(xs) {
      assert Pairwise(xs, distinct);
      FilterPairwise(xs, p, distinct);
    }
    if ByPriority(xs) {
      assert Pairwise(xs, ordered);
      FilterPairwise(xs, p, ordered);
    }
  }

  predicate HasId(xs: seq<Ad>, id: int)
  {
    exists k :: 0 <= k < |xs| && xs[k].id == id
  }

  /** The two counters an ad carries. */
  datatype Counter = Impressions | Clicks

  /** One more impression or click. */
  function Bump(a: Ad, c: Counter): Ad
  {
    match c
    case Impressions => a.(impressions := a.impressions + 1)
    case Clicks => a.(clicks := a.clicks + 1)
  }

  /** The table after `counter += 1; save()` on the row with id `id`. */
  function BumpById(store: seq<Ad>, id: int, c: Counter): (r: seq<Ad>)
    ensures |r| == |store|
    ensures forall j :: 0 <= j < |store| ==> r[j] == if store[j].id == id then Bump(store[j], c) else store[j]
  {
    if |store| == 0 then []
    else
      var rest := BumpById(store[1..], id, c);
      [if store[0].id == id then Bump(store[0], c) else store[0]] + rest
  }

  /** How many ads of `xs` have id `id`. */
  function CountId(xs: seq<Ad>, id: int): nat
  {
    if |xs| == 0 then 0 else (if xs[0].id == id then 1 else 0) + CountId(xs[1..], id)
  }

  /** Incrementing one counter `n` times. */
  function BumpTimes(a: Ad, c: Counter, n: nat): Ad
  {
    match c
    case Impressions => a.(impressions := a.impressions + n)
    case Clicks => a.(clicks := a.clicks + n)
  }

  /** The table after incrementing the counter of every ad of `picked`, one after another. */
  function BumpEach(store: seq<Ad>, picked: seq<Ad>, c: Counter): (r: seq<Ad>)
    ensures |r| == |store|
    decreases |picked|
  {
    if |picked| == 0 then store
    else BumpEach(BumpById(store, picked[0].id, c), picked[1..], c)
  }

  /** One more increment after `n` of them is `n + 1` increments. */
  lemma BumpThenTimes(a: Ad, c: Counter, n: nat)
    ensures BumpTimes(Bump(a, c), c, n) == BumpTimes(a, c, n + 1)
  {
  }

  /** Each row is incremented as many times as its id occurs among the picks. */
  lemma {:induction false} BumpEachCounts(store: seq<Ad>, picked: seq<Ad>, c: Counter)
    ensures forall j :: 0 <= j < |store| ==>
      BumpEach(store, picked, c)[j] == BumpTimes(store[j], c, CountId(picked, store[j].id))
    decreases |picked|
  {
    if |picked| == 0 {
      forall j | 0 <= j < |store|
        ensures BumpEach(store, picked, c)[j] == BumpTimes(store[j], c, 0)
      {
      }
    } else {
      var id := picked[0].id;
      var once := BumpById(store, id, c);
      BumpEachCounts(once, picked[1..], c);
      forall j | 0 <= j < |store|
        ensures BumpEach(store, picked, c)[j] == BumpTimes(store[j], c, CountId(picked, store[j].id))
      {
        var n := CountId(picked[1..], store[j].id);
        assert CountId(picked, store[j].id) == (if id == store[j].id then 1 else 0) + n;
        assert once[j].id == store[j].id;
        if store[j].id == id {
          BumpThenTimes(store[j], c, n);
        }
      }
    }
  }

  /** With distinct ids, an id occurs once in the list exactly when it occurs at all. */
  lemma {:induction false} CountIdUnique(xs: seq<Ad>, id: int)
    requires UniqueIds(xs)
    ensures CountId(xs, id) == if HasId(xs, id) then 1 else 0
  {
    if |xs| > 0 {
      assert UniqueIds(xs[1..]) by {
        forall i, j | 0 <= i < j < |xs[1..]|
          ensures xs[1..][i].id != xs[1..][j].id
        {
          assert xs[1..][i] == xs[i + 1] && xs[1..][j] == xs[j + 1];
        }
      }
      CountIdUnique(xs[1..], id);
      if xs[0].id == id {
        forall k | 0 <= k < |xs[1..]|
          ensures xs[1..][k].id != id
        {
          assert xs[1..][k] == xs[k + 1];
        }
      }
      assert HasId(xs, id) <==> xs[0].id == id || HasId(xs[1..], id) by {
        if HasId(xs[1..], id) {
          var k :| 0 <= k < |xs[1..]| && xs[1..][k].id == id;
          assert xs[k + 1].id == id;
        }
        if HasId(xs, id) && xs[0].id != id {
          var k :| 0 <= k < |xs| && xs[k].id == id;
          assert xs[1..][k - 1].id == id;
        }
      }
    }
  }

  /**
   Incrementing a list of ads with distinct ids raises each of their rows by
   exactly one and leaves every other row as it was.
   */
  lemma BumpEachUnique(store: seq<Ad>, picked: seq<Ad>, c: Counter)
    requires UniqueIds(picked)
    ensures forall j :: 0 <= j < |store| ==>
      BumpEach(store, picked, c)[j] == if HasId(picked, store[j].id) then Bump(store[j], c) else store[j]
  {
    BumpEachCounts(store, picked, c);
    forall j | 0 <= j < |store|
      ensures BumpEach(store, picked, c)[j] == if HasId(picked, store[j].id) then Bump(store[j], c) else store[j]
    {
      CountIdUnique(picked, store[j].id);
    }
  }

  // ---------------------------------------------------------------------------
  // Ordering by priority
  // ---------------------------------------------------------------------------

  /** Insertion into a priority-ordered list, before the first ad of no higher priority. */
  function InsertByPriority(x: Ad, ys: seq<Ad>): (r: seq<Ad>)
    ensures multiset(r) == multiset(ys) + multiset{x}
  {
    if |ys| == 0 || x.priority >= ys[0].priority then [x] + ys
    else
      assert ys == [ys[0]] + ys[1..];
      [ys[0]] + InsertByPriority(x, ys[1..])
  }

  /** Every ad of an insertion result is the inserted ad or one of the list. */
  lemma InsertMembers(x: Ad, ys: seq<Ad>)
    ensures forall z :: z in InsertByPriority(x, ys) ==> z == x || z in ys
  {
    var r := InsertByPriority(x, ys);
    forall z | z in r
      ensures z == x || z in ys
    {
      assert z in multiset(r);
      if z != x {
        assert z in multiset(ys);
      }
    }
  }

  /** The tail of an ordered list is ordered and bounded by its head. */
  lemma TailByPriority(ys: seq<Ad>)
    requires ByPriority(ys) && |ys| > 0
    ensures ByPriority(ys[1..])
    ensures forall z :: z in ys[1..] ==> z.priority <= ys[0].priority
  {
    forall z | z in ys[1..]
      ensures z.priority <= ys[0].priority
    {
      var m :| 0 <= m < |ys[1..]| && ys[1..][m] == z;
      assert ys[m + 1] == z;
    }
  }

  /** An ad of at least the priority of every ad of an ordered list can go in front. */
  lemma ConsByPriority(h: Ad, t: seq<Ad>)
    requires ByPriority(t)
    requires forall z :: z in t ==> z.priority <= h.priority
    ensures ByPriority([h] + t)
  {
    var r := [h] + t;
    forall i, j | 0 <= i < j < |r|
      ensures r[i].priority >= r[j].priority
    {
      assert r[j] == t[j - 1];
      if i > 0 {
        assert r[i] == t[i - 1];
      }
    }
  }

  lemma {:induction false} InsertKeepsOrder(x: Ad, ys: seq<Ad>)
    requires ByPriority(ys)
    ensures ByPriority(InsertByPriority(x, ys))
  {
    if |ys| == 0 {
      ConsByPriority(x, ys);
    } else if x.priority >= ys[0].priority {
      TailByPriority(ys);
      ConsByPriority(x, ys);
    } else {
      TailByPriority(ys);
      InsertKeepsOrder(x, ys[1..]);
      InsertMembers(x, ys[1..]);
      ConsByPriority(ys[0], InsertByPriority(x, ys[1..]));
    }
  }

  /** Insertion sort by non-increasing priority. */
  function SortByPriority(xs: seq<Ad>): (r: seq<Ad>)
    ensures ByPriority(r)
    ensures multiset(r) == multiset(xs)
  {
    if |xs| == 0 then []
    else
      var sorted := SortByPriority(xs[1..]);
      InsertKeepsOrder(xs[0], sorted);
      assert xs == [xs[0]] + xs[1..];
      InsertByPriority(xs[0], sorted)
  }

  /** The tail of a list with distinct ids has distinct ids, none of them the head's. */
  lemma TailUniqueIds(ys: seq<Ad>)
    requires UniqueIds(ys) && |ys| > 0
    ensures UniqueIds(ys[1..])
    ensures forall z :: z in ys[1..] ==> z.id != ys[0].id
  {
    forall z | z in ys[1..]
      ensures z.id != ys[0].id
    {
      var m :| 0 <= m < |ys[1..]| && ys[1..][m] == z;
      assert ys[m + 1] == z;
    }
  }

  /** An ad whose id no ad of a list with distinct ids has can go in front. */
  lemma ConsUniqueIds(h: Ad, t: seq<Ad>)
    requires UniqueIds(t)
    requires forall z :: z in t ==> z.id != h.id
    ensures UniqueIds([h] + t)
  {
    var r := [h] + t;
    forall i, j | 0 <= i < j < |r|
      ensures r[i].id != r[j].id
    {
      assert r[j] == t[j - 1];
      if i > 0 {
        assert r[i] == t[i - 1];
      }
    }
  }

  lemma {:induction false} InsertKeepsUniqueIds(x: Ad, ys: seq<Ad>)
    requires UniqueIds(ys)
    requires forall y :: y in ys ==> y.id != x.id
    ensures UniqueIds(InsertByPriority(x, ys))
  {
    if |ys| == 0 || x.priority >= ys[0].priority {
      ConsUniqueIds(x, ys);
    } else {
      TailUniqueIds(ys);
      InsertKeepsUniqueIds(x, ys[1..]);
      InsertMembers(x, ys[1..]);
      assert ys[0] in ys;
      ConsUniqueIds(ys[0], InsertByPriority(x, ys[1..]));
    }
  }

  lemma {:induction false} SortKeepsUniqueIds(xs: seq<Ad>)
    requires UniqueIds(xs)
    ensures UniqueIds(SortByPriority(xs))
  {
    if |xs| > 0 {
      TailUniqueIds(xs);
      SortKeepsUniqueIds(xs[1..]);
      var sorted := SortByPriority(xs[1..]);
      forall y | y in sorted
        ensures y.id != xs[0].id
      {
        assert y in multiset(xs[1..]);
      }
      InsertKeepsUniqueIds(xs[0], sorted);
    }
  }

  /**
   The queryset ordering `order_by('-priority', '?')`: some rearrangement of
   the rows with non-increasing priority. Ties are broken at random in the
   source, so callers may rely on nothing beyond this contract.
   */
  method OrderByPriority(xs: seq<Ad>) returns (r: seq<Ad>)
    ensures ByPriority(r)
    ensures multiset(r) == multiset(xs)
    ensures forall z :: z in r <==> z in xs
    ensures UniqueIds(xs) ==> UniqueIds(r)
  {
    r := SortByPriority(xs);
    forall z
      ensures z in r <==> z in xs
    {
      assert z in r <==> z in multiset(r);
      assert z in xs <==> z in multiset(xs);
    }
    if UniqueIds(xs) {
      SortKeepsUniqueIds(xs);
    }
  }
}

=== FILE: basics.dfy ===
/**
 Small generic helpers shared by every other module: an Option type, sequence
 filtering, pairwise relations over sequences, and the handful of Python string
 operations the blog code relies on (slicing, strip, split, join, title-casing,
 replace, integer formatting), all restricted to ASCII.
 */
module Basics {

  /** The usual Some/None type, used for Python's `None`. */
  datatype Option<T> = None | Some(value: T)

  function Max(a: int, b: int): int
  {
    if a >= b then a else b
  }

  // ---------------------------------------------------------------------------
  // Sequences
  // ---------------------------------------------------------------------------

  /** The elements of `xs` satisfying `p`, in their original order. */
  function Filter<T(!new)>(xs: seq<T>, p: T -> bool): (r: seq<T>)
    ensures |r| <= |xs|
    ensures forall x :: x in r <==> x in xs && p(x)
    ensures (forall i :: 0 <= i < |xs| ==> p(xs[i])) ==> r == xs
  {
    if |xs| == 0 then []
    else (if p(xs[0]) then [xs[0]] else []) + Filter(xs[1..], p)
  }

  lemma {:induction false} FilterAppend<T(!new)>(a: seq<T>, b: seq<T>, p: T -> bool)
    ensures Filter(a + b, p) == Filter(a, p) + Filter(b, p)
  {
    if |a| == 0 {
      assert a + b == b;
    } else {
      assert (a + b)[1..] == a[1..] + b;
      FilterAppend(a[1..], b, p);
    }
  }

  /** Filtering one more element: the prefix filter grows by at most that element. */
  lemma FilterSnoc<T(!new)>(xs: seq<T>, i: nat, p: T -> bool)
    requires i < |xs|
    ensures Filter(xs[..i + 1], p) == Filter(xs[..i], p) + (if p(xs[i]) then [xs[i]] else [])
  {
    assert xs[..i + 1] == xs[..i] + [xs[i]];
    FilterAppend(xs[..i], [xs[i]], p);
    assert Filter([xs[i]], p) == (if p(xs[i]) then [xs[i]] else []) + Filter([xs[i]][1..], p);
  }

  /** `Filter(xs[..n], p)` built element by element from the front, as a scan
      collects it. */
  function FilterPrefix<T(!new)>(xs: seq<T>, p: T -> bool, n: nat): seq<T>
    requires n <= |xs|
  {
    if n == 0 then [] else FilterPrefix(xs, p, n - 1) + (if p(xs[n - 1]) then [xs[n - 1]] else [])
  }

  lemma {:induction false} FilterPrefixIsFilter<T(!new)>(xs: seq<T>, p: T -> bool, n: nat)
    requires n <= |xs|
    ensures FilterPrefix(xs, p, n) == Filter(xs[..n], p)
  {
    if n == 0 {
      assert xs[..0] == [];
    } else {
      var last := if p(xs[n - 1]) then [xs[n - 1]] else [];
      FilterPrefixIsFilter(xs, p, n - 1);
      FilterSnoc(xs, n - 1, p);
      assert FilterPrefix(xs, p, n) == FilterPrefix(xs, p, n - 1) + last;
      assert Filter(xs[..n], p) == Filter(xs[..n - 1], p) + last;
    }
  }

  /** How many of the first `k` elements of `xs` satisfy `p`. */
  function CountKept<T(!new)>(xs: seq<T>, p: T -> bool, k: nat): nat
    requires k <= |xs|
  {
    |FilterPrefix(xs, p, k)|
  }

  /** A scan that stops once `count` elements are kept, checking after each step, has kept at most
      `max(count, 1)` elements: the steps before the last kept fewer than `count`, the last adds at
      most one. */
  lemma {:induction false} CountKeptStop<T(!new)>(xs: seq<T>, p: T -> bool, count: int, scanned: nat)
    requires scanned <= |xs|
    requires scanned >= 2 ==> CountKept(xs, p, scanned - 1) < count
    ensures CountKept(xs, p, scanned) <= Max(count, 1)
  {
    if scanned > 0 {
      assert CountKept(xs, p, scanned) <= CountKept(xs, p, scanned - 1) + 1;
    }
  }

  /** A scan of one step keeps the first element exactly when it satisfies `p`. */
  lemma FilterFirst<T(!new)>(xs: seq<T>, p: T -> bool)
    requires |xs| > 0
    ensures Filter(xs[..1], p) == if p(xs[0]) then [xs[0]] else []
  {
    FilterSnoc(xs, 0, p);
    assert xs[..0] == [];
  }

  /** `rel` holds between every element and every later element. */
  ghost predicate Pairwise<T>(xs: seq<T>, rel: (T, T) -> bool)
  {
    forall i, j :: 0 <= i < j < |xs| ==> rel(xs[i], xs[j])
  }

  /** Filtering keeps any pairwise relation: the result is a subsequence. */
  lemma {:induction false} FilterPairwise<T(!new)>(xs: seq<T>, p: T -> bool, rel: (T, T) -> bool)
    requires Pairwise(xs, rel)
    ensures Pairwise(Filter(xs, p), rel)
  {
    if |xs| > 0 {
      var tail := Filter(xs[1..], p);
      FilterPairwise(xs[1..], p, rel);
      if p(xs[0]) {
        var r := [xs[0]] + tail;
        assert Filter(xs, p) == r;
        forall i, j | 0 <= i < j < |r|
          ensures rel(r[i], r[j])
        {
          if i == 0 {
            assert r[j] in tail;
            assert r[j] in xs[1..];
            var m :| 0 <= m < |xs[1..]| && xs[1..][m] == r[j];
            assert xs[1 + m] == r[j];
          } else {
            assert r[i] == tail[i - 1] && r[j] == tail[j - 1];
          }
        }
      }
    }
  }

  /** Python's `s[:n]` for a non-negative `n`. */
  function Take<T>(s: seq<T>, n: nat): (r: seq<T>)
    ensures |r| == if |s| <= n then |s| else n
    ensures r == s[..|r|]
  {
    if |s| <= n then s else s[..n]
  }

  predicate StartsWith<T(==)>(s: seq<T>, prefix: seq<T>)
  {
    |prefix| <= |s| && s[..|prefix|] == prefix
  }

  predicate EndsWith<T(==)>(s: seq<T>, suffix: seq<T>)
  {
    |suffix| <= |s| && s[|s| - |suffix|..] == suffix
  }

  // ---------------------------------------------------------------------------
  // Characters (ASCII only)
  // ---------------------------------------------------------------------------

  predicate IsDigit(c: char)
  {
    '0' <= c <= '9'
  }

  predicate IsLetter(c: char)
  {
    'a' <= c <= 'z' || 'A' <= c <= 'Z'
  }

  function UpperChar(c: char): char
  {
    if 'a' <= c <= 'z' then (c as int - 32) as char else c
  }

  function LowerChar(c: char): char
  {
    if 'A' <= c <= 'Z' then (c as int + 32) as char else c
  }

  /** Python's `str.isdigit()` on ASCII text: non-empty and all digits. */
  predicate IsDigits(s: string)
  {
    |s| > 0 && forall i :: 0 <= i < |s| ==> IsDigit(s[i])
  }

  /** The ASCII characters Python's `str.strip()` removes. */
  const Whitespace: set<char> := {' ', '\t', '\n', '\r', 11 as char, 12 as char,
                                  28 as char, 29 as char, 30 as char, 31 as char}

  /** Python's `s.lower()` on ASCII text. */
  function Lower(s: string): (r: string)
    ensures |r| == |s|
    ensures forall i :: 0 <= i < |s| ==> r[i] == LowerChar(s[i])
  {
    if |s| == 0 then "" else [LowerChar(s[0])] + Lower(s[1..])
  }

  /** Case-insensitive equality, as Django's `iexact` lookup on ASCII text. */
  predicate EqualsIgnoreCase(a: string, b: string)
  {
    Lower(a) == Lower(b)
  }

  // ---------------------------------------------------------------------------
  // strip / split / join
  // ---------------------------------------------------------------------------

  function StripLeft(s: string, drop: set<char>): (r: string)
    ensures |r| <= |s| && r == s[|s| - |r|..]
    ensures |r| > 0 ==> r[0] !in drop
    ensures forall i :: 0 <= i < |s| - |r| ==> s[i] in drop
  {
    if |s| > 0 && s[0] in drop then StripLeft(s[1..], drop) else s
  }

  function StripRight(s: string, drop: set<char>): (r: string)
    ensures |r| <= |s| && r == s[..|r|]
    ensures |r| > 0 ==> r[|r| - 1] !in drop
    ensures forall i :: |r| <= i < |s| ==> s[i] in drop
  {
    if |s| > 0 && s[|s| - 1] in drop then StripRight(s[..|s| - 1], drop) else s
  }

  /** Python's `s.strip(chars)`: drop leading and trailing characters of `drop`. */
  function Strip(s: string, drop: set<char>): (r: string)
    ensures |r| <= |s|
    ensures |r| > 0 ==> r[0] !in drop && r[|r| - 1] !in drop
    ensures (forall i :: 0 <= i < |s| ==> s[i] !in drop) ==> r == s
    ensures (forall i :: 0 <= i < |s| ==> s[i] in drop) ==> r == ""
  {
    var l := StripLeft(s, drop);
    var r := StripRight(l, drop);
    assert |l| > 0 ==> l[0] == s[|s| - |l|];
    assert |r| > 0 ==> r[0] == l[0];
    r
  }

  /** One dropped character on each side of a string that starts and ends
      with kept characters is exactly what `strip` removes. */
  lemma StripFramed(inner: string, c: char, drop: set<char>)
    requires c in drop && |inner| > 0 && inner[0] !in drop && inner[|inner| - 1] !in drop
    ensures Strip([c] + inner + [c], drop) == inner
  {
    var tail := inner + [c];
    assert [c] + inner + [c] == [c] + tail;
    StripLeftFramed(c, tail, drop);
    StripRightFramed(inner, c, drop);
  }

  lemma StripLeftFramed(c: char, tail: string, drop: set<char>)
    requires c in drop && |tail| > 0 && tail[0] !in drop
    ensures StripLeft([c] + tail, drop) == tail
  {
    assert ([c] + tail)[1..] == tail;
  }

  lemma StripRightFramed(inner: string, c: char, drop: set<char>)
    requires c in drop && |inner| > 0 && inner[|inner| - 1] !in drop
    ensures StripRight(inner + [c], drop) == inner
  {
    assert (inner + [c])[..|inner|] == inner;
  }

  /**
   Python's `s.split(sep)` with an explicit one-character separator: there is
   always at least one part, and no part contains the separator.
   */
  function Split(s: string, sep: char): (parts: seq<string>)
    ensures |parts| >= 1
    ensures forall k :: 0 <= k < |parts| ==> sep !in parts[k]
  {
    if |s| == 0 then [""]
    else
      var rest := Split(s[1..], sep);
      if s[0] == sep then [""] + rest
      else [[s[0]] + rest[0]] + rest[1..]
  }

  /** Python's `sep.join(parts)`. */
  function Join(parts: seq<string>, sep: string): (r: string)
    ensures |parts| == 0 ==> r == ""
    ensures |parts| == 1 ==> r == parts[0]
    ensures |parts| >= 1 ==> StartsWith(r, parts[0])
  {
    if |parts| == 0 then ""
    else if |parts| == 1 then parts[0]
    else parts[0] + sep + Join(parts[1..], sep)
  }

  /** Joining the parts of a split with the same separator gives the text back. */
  lemma {:induction false} JoinSplit(s: string, sep: char)
    ensures Join(Split(s, sep), [sep]) == s
  {
    if |s| > 0 {
      var rest := Split(s[1..], sep);
      JoinSplit(s[1..], sep);
      if s[0] == sep {
        assert Split(s, sep) == [""] + rest;
        assert ([""] + rest)[1..] == rest;
        assert s == [sep] + s[1..];
      } else {
        var parts := [[s[0]] + rest[0]] + rest[1..];
        assert Split(s, sep) == parts;
        if |rest| == 1 {
          assert s == [s[0]] + s[1..];
        } else {
          assert parts[1..] == rest[1..];
          assert Join(rest, [sep]) == rest[0] + [sep] + Join(rest[1..], [sep]);
          assert s == [s[0]] + s[1..];
        }
      }
    }
  }

  /** Joining one more part at the end appends the separator and that part. */
  lemma {:induction false} JoinSnoc(parts: seq<string>, x: string, sep: string)
    requires |parts| >= 1
    ensures Join(parts + [x], sep) == Join(parts, sep) + sep + x
  {
    if |parts| > 1 {
      JoinSnoc(parts[1..], x, sep);
      assert (parts + [x])[1..] == parts[1..] + [x];
    }
  }

  /** Splitting a join of separator-free parts gives the parts back. */
  lemma {:induction false} SplitJoin(parts: seq<string>, sep: char)
    requires |parts| >= 1
    requires forall k :: 0 <= k < |parts| ==> sep !in parts[k]
    ensures Split(Join(parts, [sep]), sep) == parts
  {
    if |parts| == 1 {
      SplitPlain(parts[0], sep);
    } else {
      var tail := Join(parts[1..], [sep]);
      SplitJoin(parts[1..], sep);
      SplitCons(parts[0], tail, sep);
      assert Join(parts, [sep]) == parts[0] + [sep] + tail;
      assert [parts[0]] + parts[1..] == parts;
    }
  }

  /** A separator-free text splits into itself. */
  lemma {:induction false} SplitPlain(s: string, sep: char)
    requires sep !in s
    ensures Split(s, sep) == [s]
  {
    if |s| > 0 {
      SplitPlain(s[1..], sep);
      assert [s[0]] + s[1..] == s;
    }
  }

  /** Splitting `a + sep + b` for separator-free `a`. */
  lemma {:induction false} SplitCons(a: string, b: string, sep: char)
    requires sep !in a
    ensures Split(a + [sep] + b, sep) == [a] + Split(b, sep)
  {
    var s := a + [sep] + b;
    if |a| == 0 {
      assert s == [sep] + b;
      assert s[1..] == b;
    } else {
      assert s[1..] == a[1..] + [sep] + b;
      SplitCons(a[1..], b, sep);
      assert [a[0]] + a[1..] == a;
    }
  }

  // ---------------------------------------------------------------------------
  // Title-casing and replacement
  // ---------------------------------------------------------------------------

  /** Whether position `i` of `s` starts a word for `str.title()`: the character
      before it is not a letter (before position 0 that is `afterLetter`). */
  predicate StartsWord(s: string, i: nat, afterLetter: bool)
    requires i < |s|
  {
    if i == 0 then !afterLetter else !IsLetter(s[i - 1])
  }

  /** How `str.title()` rewrites one character. */
  function TitleChar(c: char, wordStart: bool): char
  {
    if !IsLetter(c) then c else if wordStart then UpperChar(c) else LowerChar(c)
  }

  /** Title-casing never turns a character into a hyphen or a hyphen into anything else. */
  lemma TitleCharKeepsDash(c: char, wordStart: bool)
    ensures TitleChar(c, wordStart) == '-' <==> c == '-'
  {
  }

  /** Python's `str.title()` on ASCII: a letter is upper-cased when it starts a
      word (no letter right before it) and lower-cased otherwise. */
  function Title(s: string): (r: string)
    ensures |r| == |s|
    ensures forall i :: 0 <= i < |s| ==> r[i] == TitleChar(s[i], i == 0 || !IsLetter(s[i - 1]))
  {
    var r := TitleFrom(s, false);
    assert forall i :: 0 <= i < |s| ==> StartsWord(s, i, false) == (i == 0 || !IsLetter(s[i - 1]));
    r
  }

  function TitleFrom(s: string, afterLetter: bool): (r: string)
    ensures |r| == |s|
    ensures forall i :: 0 <= i < |s| ==> r[i] == TitleChar(s[i], StartsWord(s, i, afterLetter))
  {
    if |s| == 0 then ""
    else
      var tail := TitleFrom(s[1..], IsLetter(s[0]));
      TitleTail(s, afterLetter, tail);
      [TitleChar(s[0], !afterLetter)] + tail
  }

  /** Shifts the title-casing description of `s[1..]` to positions of `s`. */
  lemma TitleTail(s: string, afterLetter: bool, tail: string)
    requires |s| > 0 && |tail| == |s| - 1
    requires forall i :: 0 <= i < |s| - 1 ==>
      tail[i] == TitleChar(s[1..][i], StartsWord(s[1..], i, IsLetter(s[0])))
    ensures forall i :: 1 <= i < |s| ==> tail[i - 1] == TitleChar(s[i], StartsWord(s, i, afterLetter))
  {
    forall i | 1 <= i < |s|
      ensures tail[i - 1] == TitleChar(s[i], StartsWord(s, i, afterLetter))
    {
      assert s[1..][i - 1] == s[i];
      if i >= 2 {
        assert s[1..][i - 2] == s[i - 1];
      }
      assert StartsWord(s[1..], i - 1, IsLetter(s[0])) == StartsWord(s, i, afterLetter);
    }
  }

  /** Every occurrence of character `a` replaced by `b`. */
  function ReplaceChar(s: string, a: char, b: char): (r: string)
    ensures |r| == |s|
    ensures forall i :: 0 <= i < |s| ==> r[i] == if s[i] == a then b else s[i]
  {
    if |s| == 0 then "" else [if s[0] == a then b else s[0]] + ReplaceChar(s[1..], a, b)
  }

  /** `pat` occurs in `s` starting at position `i`. */
  predicate OccursAt(s: string, pat: string, i: nat)
  {
    i + |pat| <= |s| && s[i..i + |pat|] == pat
  }

  /** Python's `str.replace(pat, rep)`: non-overlapping occurrences, left to right. */
  function ReplaceAll(s: string, pat: string, rep: string): (r: string)
    requires |pat| > 0
    ensures |rep| <= |pat| ==> |r| <= |s|
    ensures StartsWith(s, pat) ==> StartsWith(r, rep)
    ensures (forall i: nat :: !OccursAt(s, pat, i)) ==> r == s
    decreases |s|
  {
    if |s| < |pat| then s
    else if s[..|pat|] == pat then
      var rest := ReplaceAll(s[|pat|..], pat, rep);
      assert OccursAt(s, pat, 0);
      assert (rep + rest)[..|rep|] == rep;
      rep + rest
    else
      var rest := ReplaceAll(s[1..], pat, rep);
      NoOccurrenceTail(s, pat);
      assert [s[0]] + s[1..] == s;
      [s[0]] + rest
  }

  /** No occurrence of `pat` in `s` means none in `s[1..]` either. */
  lemma NoOccurrenceTail(s: string, pat: string)
    requires |s| > 0
    ensures (forall i: nat :: !OccursAt(s, pat, i)) ==> (forall i: nat :: !OccursAt(s[1..], pat, i))
  {
    forall i: nat | OccursAt(s[1..], pat, i)
      ensures OccursAt(s, pat, i + 1)
    {
      assert s[1..][i..i + |pat|] == s[i + 1..i + 1 + |pat|];
    }
  }

  // ---------------------------------------------------------------------------
  // Decimal formatting of naturals, as Python's f"{n}"
  // ---------------------------------------------------------------------------

  function DigitChar(d: nat): char
    requires d < 10
  {
    ('0' as int + d) as char
  }

  function NatToString(n: nat): (r: string)
    ensures IsDigits(r)
    ensures |r| > 1 ==> r[0] != '0'
    decreases n
  {
    if n < 10 then [DigitChar(n)]
    else
      var r := NatToString(n / 10) + [DigitChar(n % 10)];
      r
  }

  /** Reads a digit string back as a number. */
  function ParseDigits(s: string): nat
    requires forall i :: 0 <= i < |s| ==> IsDigit(s[i])
  {
    if |s| == 0 then 0
    else
      assert IsDigit(s[|s| - 1]);
      ParseDigits(s[..|s| - 1]) * 10 + (s[|s| - 1] as int - '0' as int)
  }

  /** Formatting then parsing a natural gives it back. */
  lemma {:induction false} ParseNatToString(n: nat)
    ensures ParseDigits(NatToString(n)) == n
    decreases n
  {
    var s := NatToString(n);
    if n >= 10 {
      ParseNatToString(n / 10);
      assert s[..|s| - 1] == NatToString(n / 10);
    }
  }

  /** Distinct naturals format to distinct texts. */
  lemma NatToStringInjective(m: nat, n: nat)
    requires NatToString(m) == NatToString(n)
    ensures m == n
  {
    ParseNatToString(m);
    ParseNatToString(n);
  }
}

=== FILE: breadcrumbs.dfy ===
/**
 The breadcrumb builder: a list of crumbs (title, optional link, active flag)
 and the trail derived from the request path, one crumb per non-numeric path
 component. URL resolution and the database lookups for post and category
 names are parameters of the model (`Env`).
 */
module Breadcrumbs {
  import opened Basics

  datatype Crumb = Crumb(title: string, url: Option<string>, isActive: bool)

  /** What resolving a path reports: the URL name (possibly unnamed) and
      whether the view is class-based (has a `view_class`). */
  datatype Match = Match(urlName: Option<string>, classView: bool)

  /**
   The outside world seen by the builder: the URL resolver (`None` is a
   `Resolver404`), post titles by slug, category names by id, and the keyword
   arguments of the request's own resolver match (`None` when the request has
   no resolver match).
   */
  datatype Env = Env(
    resolve: string -> Option<Match>,
    postTitle: string -> Option<string>,
    categoryName: string -> Option<string>,
    requestKwargs: Option<map<string, string>>)

  /** `add`: one more crumb at the end; the earlier ones are kept. */
  function Add(crumbs: seq<Crumb>, title: string, url: Option<string>, isActive: bool): (r: seq<Crumb>)
    ensures |r| == |crumbs| + 1 && r[..|crumbs|] == crumbs
    ensures r[|crumbs|].title == title && r[|crumbs|].url == url && r[|crumbs|].isActive == isActive
  {
    crumbs + [Crumb(title, url, isActive)]
  }

  /** The fixed labels of known URL names. */
  function TitleMap(name: string): Option<string>
  {
    match name
    case "home" => Some("Home")
    case "blog_list" => Some("Blogs")
    case "post_list" => Some("Blog")
    case "post_detail" => Some("Article")
    case "category_list" => Some("Categories")
    case "category_posts" => Some("Category")
    case "tag_list" => Some("Tags")
    case "search" => Some("Search Results")
    case _ => None
  }

  /** A path component as a label: hyphens become spaces, then title case. */
  function Humanize(component: string): (r: string)
    ensures |r| == |component|
    ensures forall i :: 0 <= i < |r| ==> r[i] != '-'
  {
    var spaced := ReplaceChar(component, '-', ' ');
    var r := Title(spaced);
    forall i | 0 <= i < |r|
      ensures r[i] != '-'
    {
      assert spaced[i] != '-';
      TitleCharKeepsDash(spaced[i], i == 0 || !IsLetter(spaced[i - 1]));
    }
    r
  }

  /**
   Character by character, a humanized component is the component with
   hyphens turned into spaces, the first letter of each word upper-cased and
   the other letters lower-cased.
   */
  lemma HumanizeChars(component: string)
    ensures forall i :: 0 <= i < |component| ==>
      LowerChar(Humanize(component)[i]) == LowerChar(if component[i] == '-' then ' ' else component[i])
    ensures forall i :: 0 <= i < |component| && IsLetter(component[i]) && StartsWord(component, i, false) ==>
      Humanize(component)[i] == UpperChar(component[i])
    ensures forall i :: 0 < i < |component| && IsLetter(component[i]) && IsLetter(component[i - 1]) ==>
      Humanize(component)[i] == LowerChar(component[i])
  {
    forall i | 0 <= i < |component|
      ensures LowerChar(Humanize(component)[i]) == LowerChar(if component[i] == '-' then ' ' else component[i])
    {
      HumanizeAt(component, i);
    }
    forall i | 0 <= i < |component| && IsLetter(component[i]) && StartsWord(component, i, false)
      ensures Humanize(component)[i] == UpperChar(component[i])
    {
      HumanizeAt(component, i);
    }
    forall i | 0 < i < |component| && IsLetter(component[i]) && IsLetter(component[i - 1])
      ensures Humanize(component)[i] == LowerChar(component[i])
    {
      HumanizeAt(component, i);
    }
  }

  /** One position of `HumanizeChars`. */
  lemma HumanizeAt(component: string, i: nat)
    requires i < |component|
    ensures LowerChar(Humanize(component)[i]) == LowerChar(if component[i] == '-' then ' ' else component[i])
    ensures IsLetter(component[i]) && StartsWord(component, i, false) ==>
      Humanize(component)[i] == UpperChar(component[i])
    ensures 0 < i && IsLetter(component[i]) && IsLetter(component[i - 1]) ==>
      Humanize(component)[i] == LowerChar(component[i])
  {
    var spaced := ReplaceChar(component, '-', ' ');
    var r := Humanize(component);
    assert spaced[i] == if component[i] == '-' then ' ' else component[i];
    var ws := i == 0 || !IsLetter(spaced[i - 1]);
    assert r[i] == TitleChar(spaced[i], ws);
    if i > 0 {
      assert IsLetter(spaced[i - 1]) == IsLetter(component[i - 1]);
    }
  }

  /** The label of a URL name, or the humanized component when it has none. */
  function DefaultTitle(m: Match, component: string): string
  {
    if m.urlName.Some? && TitleMap(m.urlName.value).Some? then TitleMap(m.urlName.value).value
    else Humanize(component)
  }

  /** Looking up the category name reads the request's keyword arguments, which
      fails when the request has no resolver match. */
  predicate TitleRaises(acc: string, env: Env)
  {
    env.resolve(acc).Some? && env.resolve(acc).value.urlName == Some("category_posts") && env.requestKwargs.None?
  }

  /**
   The title of the crumb for `component`, whose accumulated path is `acc`.
   Unresolved paths use the humanized component. A class-based post detail
   view uses the post's title when a post has that slug; a category page uses
   the category's name when the request's arguments carry `category` and a
   `category_id` naming an existing category. Every failed lookup keeps the
   default title.
   */
  function ComponentTitle(component: string, acc: string, env: Env): string
  {
    match env.resolve(acc)
    case None => Humanize(component)
    case Some(m) =>
      var default := DefaultTitle(m, component);
      if m.urlName == Some("post_detail") && m.classView then
        match env.postTitle(component)
        case Some(t) => t
        case None => default
      else if m.urlName == Some("category_posts") && env.requestKwargs.Some? && "category" in env.requestKwargs.value then
        var kwargs := env.requestKwargs.value;
        if "category_id" in kwargs && env.categoryName(kwargs["category_id"]).Some? then
          env.categoryName(kwargs["category_id"]).value
        else default
      else default
  }

  /** The cases of `ComponentTitle`, each lookup failure falling back to the
      default title. */
  lemma ComponentTitleCases(component: string, acc: string, env: Env)
    ensures env.resolve(acc).None? ==> ComponentTitle(component, acc, env) == Humanize(component)
    ensures env.resolve(acc).Some? && env.resolve(acc).value.urlName.None? ==>
      ComponentTitle(component, acc, env) == Humanize(component)
    ensures env.resolve(acc).Some? && env.resolve(acc).value.urlName.Some? &&
            env.resolve(acc).value.urlName.value !in {"post_detail", "category_posts"} ==>
      ComponentTitle(component, acc, env) == DefaultTitle(env.resolve(acc).value, component)
    ensures env.resolve(acc).Some? && env.resolve(acc).value.urlName == Some("post_detail") &&
            env.resolve(acc).value.classView && env.postTitle(component).Some? ==>
      ComponentTitle(component, acc, env) == env.postTitle(component).value
    ensures env.resolve(acc).Some? && env.resolve(acc).value.urlName == Some("post_detail") &&
            !env.resolve(acc).value.classView ==>
      ComponentTitle(component, acc, env) == "Article"
    ensures env.resolve(acc).Some? && env.resolve(acc).value.urlName == Some("category_posts") &&
            (env.requestKwargs.None? || "category" !in env.requestKwargs.value ||
             "category_id" !in env.requestKwargs.value ||
             env.categoryName(env.requestKwargs.value["category_id"]).None?) ==>
      ComponentTitle(component, acc, env) == "Category"
    ensures env.resolve(acc).Some? && env.resolve(acc).value.urlName == Some("category_posts") &&
            env.requestKwargs.Some? && "category" in env.requestKwargs.value &&
            "category_id" in env.requestKwargs.value &&
            env.categoryName(env.requestKwargs.value["category_id"]).Some? ==>
      ComponentTitle(component, acc, env) == env.categoryName(env.requestKwargs.value["category_id"]).value
    ensures env.resolve(acc).Some? && env.resolve(acc).value.urlName == Some("post_detail") &&
            env.resolve(acc).value.classView && env.postTitle(component).None? ==>
      ComponentTitle(component, acc, env) == "Article"
  {
  }

  // ---------------------------------------------------------------------------
  // The trail of a path
  // ---------------------------------------------------------------------------

  /** `path_info.strip('/').split('/')`. */
  function PathComponents(pathInfo: string): (comps: seq<string>)
    ensures |comps| >= 1
    ensures forall k :: 0 <= k < |comps| ==> '/' !in comps[k]
  {
    Split(Strip(pathInfo, {'/'}), '/')
  }

  /** The path accumulated after the first `n` components: `/c0/c1/.../c(n-1)`. */
  function Accumulate(comps: seq<string>, n: nat): (r: string)
    requires n <= |comps|
  {
    if n == 0 then "" else Accumulate(comps, n - 1) + "/" + comps[n - 1]
  }

  /** A non-empty prefix of the components accumulates to `/` and their join. */
  lemma {:induction false} AccumulateJoin(comps: seq<string>, n: nat)
    requires 1 <= n <= |comps|
    ensures Accumulate(comps, n) == "/" + Join(comps[..n], "/")
  {
    if n > 1 {
      AccumulateJoin(comps, n - 1);
      JoinSnoc(comps[..n - 1], comps[n - 1], "/");
      assert comps[..n - 1] + [comps[n - 1]] == comps[..n];
    }
  }

  /** All components together accumulate to the request path with its outer
      slashes replaced by one leading slash. */
  lemma FullPathAccumulated(pathInfo: string)
    ensures var comps := PathComponents(pathInfo);
            Accumulate(comps, |comps|) == "/" + Strip(pathInfo, {'/'})
  {
    var comps := PathComponents(pathInfo);
    AccumulateJoin(comps, |comps|);
    JoinSplit(Strip(pathInfo, {'/'}), '/');
    assert comps[..|comps|] == comps;
  }

  /** The crumb of component `i`: active exactly when it is the last component,
      linked to its accumulated path otherwise. */
  function CrumbAt(comps: seq<string>, i: nat, env: Env): (c: Crumb)
    requires i < |comps|
    ensures c.isActive <==> i == |comps| - 1
    ensures c.url.None? <==> c.isActive
    ensures !c.isActive ==> c.url == Some(Accumulate(comps, i + 1))
    ensures c.title == ComponentTitle(comps[i], Accumulate(comps, i + 1), env)
  {
    var acc := Accumulate(comps, i + 1);
    var isActive := i == |comps| - 1;
    Crumb(ComponentTitle(comps[i], acc, env), if isActive then None else Some(acc), isActive)
  }

  /** What component `i` contributes to the trail: nothing when it is numeric,
      its crumb otherwise. */
  function ComponentCrumbs(comps: seq<string>, i: nat, env: Env): (r: seq<Crumb>)
    requires i < |comps|
    ensures IsDigits(comps[i]) ==> r == []
    ensures !IsDigits(comps[i]) ==> r == [CrumbAt(comps, i, env)]
  {
    if IsDigits(comps[i]) then [] else [CrumbAt(comps, i, env)]
  }

  /** The crumbs of components `i..`, numeric components skipped. */
  function Trail(comps: seq<string>, i: nat, env: Env): seq<Crumb>
    requires i <= |comps|
    decreases |comps| - i
  {
    if i == |comps| then []
    else ComponentCrumbs(comps, i, env) + Trail(comps, i + 1, env)
  }

  /** The title lookup of component `j` raises. */
  predicate RaisesAt(comps: seq<string>, j: nat, env: Env)
    requires j < |comps|
  {
    !IsDigits(comps[j]) && TitleRaises(Accumulate(comps, j + 1), env)
  }

  /** One step of the trail: component `i` adds its crumb unless numeric. */
  lemma TrailStep(comps: seq<string>, i: nat, env: Env)
    requires i < |comps|
    ensures Trail(comps, i, env) == ComponentCrumbs(comps, i, env) + Trail(comps, i + 1, env)
  {
  }

  /** Some component from `i` on makes the title lookup raise. */
  predicate RaisesFrom(comps: seq<string>, i: nat, env: Env)
    requires i <= |comps|
    decreases |comps| - i
  {
    i < |comps| && (RaisesAt(comps, i, env) || RaisesFrom(comps, i + 1, env))
  }

  /** The positions, from `i` on, of the components that get a crumb. */
  function Emitting(comps: seq<string>, i: nat): (ks: seq<nat>)
    requires i <= |comps|
    ensures forall m :: 0 <= m < |ks| ==> i <= ks[m] < |comps| && !IsDigits(comps[ks[m]])
    decreases |comps| - i
  {
    if i == |comps| then []
    else (if IsDigits(comps[i]) then [] else [i]) + Emitting(comps, i + 1)
  }

  /** The crumb positions come in increasing order. */
  lemma {:induction false} EmittingIncreasing(comps: seq<string>, i: nat)
    requires i <= |comps|
    ensures forall m, m' :: 0 <= m < m' < |Emitting(comps, i)| ==> Emitting(comps, i)[m] < Emitting(comps, i)[m']
    decreases |comps| - i
  {
    if i < |comps| {
      EmittingIncreasing(comps, i + 1);
      var ks, ks' := Emitting(comps, i), Emitting(comps, i + 1);
      if !IsDigits(comps[i]) {
        assert ks == [i] + ks';
        forall m, m' | 0 <= m < m' < |ks|
          ensures ks[m] < ks[m']
        {
          assert ks[m'] == ks'[m' - 1];
          if m > 0 {
            assert ks[m] == ks'[m - 1];
          }
        }
      }
    }
  }

  /** Every non-numeric component from `i` on has a crumb position. */
  lemma {:induction false} EmittingComplete(comps: seq<string>, i: nat)
    requires i <= |comps|
    ensures forall j :: i <= j < |comps| && !IsDigits(comps[j]) ==> j in Emitting(comps, i)
    decreases |comps| - i
  {
    if i < |comps| {
      EmittingComplete(comps, i + 1);
      var ks, ks' := Emitting(comps, i), Emitting(comps, i + 1);
      assert ks == (if IsDigits(comps[i]) then [] else [i]) + ks';
      forall j | i <= j < |comps| && !IsDigits(comps[j])
        ensures j in ks
      {
        if j > i {
          assert j in ks';
        }
      }
    }
  }

  /** `t` holds, position by position, the crumbs of the components at positions `ks`. */
  predicate CrumbsOf(t: seq<Crumb>, comps: seq<string>, ks: seq<nat>, env: Env)
  {
    |t| == |ks| && forall m :: 0 <= m < |ks| ==> ks[m] < |comps| && t[m] == CrumbAt(comps, ks[m], env)
  }

  /** Putting the crumb of component `i` in front of such a sequence. */
  lemma CrumbsOfCons(t: seq<Crumb>, comps: seq<string>, ks: seq<nat>, env: Env, i: nat)
    requires CrumbsOf(t, comps, ks, env) && i < |comps|
    ensures CrumbsOf([CrumbAt(comps, i, env)] + t, comps, [i] + ks, env)
  {
    var t2, ks2 := [CrumbAt(comps, i, env)] + t, [i] + ks;
    forall m | 0 <= m < |ks2|
      ensures ks2[m] < |comps| && t2[m] == CrumbAt(comps, ks2[m], env)
    {
      if m > 0 {
        assert t2[m] == t[m - 1] && ks2[m] == ks[m - 1];
      }
    }
  }

  /** Crumb `m` of the trail is the crumb of the `m`-th non-numeric component. */
  lemma {:induction false} TrailIsEmitting(comps: seq<string>, i: nat, env: Env)
    requires i <= |comps|
    ensures CrumbsOf(Trail(comps, i, env), comps, Emitting(comps, i), env)
    decreases |comps| - i
  {
    if i < |comps| {
      TrailIsEmitting(comps, i + 1, env);
      TrailStep(comps, i, env);
      var t' := Trail(comps, i + 1, env);
      var ks' := Emitting(comps, i + 1);
      if IsDigits(comps[i]) {
        assert Emitting(comps, i) == ks';
        assert Trail(comps, i, env) == t';
      } else {
        assert Emitting(comps, i) == [i] + ks';
        assert Trail(comps, i, env) == [CrumbAt(comps, i, env)] + t';
        CrumbsOfCons(t', comps, ks', env, i);
      }
    }
  }

  /**
   The links of a trail: exactly the active crumb has no link, and every
   other crumb links to the path accumulated up to its own component.
   */
  lemma TrailLinks(comps: seq<string>, env: Env)
    ensures var t := Trail(comps, 0, env); var ks := Emitting(comps, 0);
      |t| == |ks| &&
      forall m :: 0 <= m < |t| ==>
        (t[m].url.None? <==> t[m].isActive) &&
        (!t[m].isActive ==> t[m].url == Some(Accumulate(comps, ks[m] + 1)))
  {
    TrailIsEmitting(comps, 0, env);
  }

  /**
   The active crumb of a trail: only the last crumb can be active; there are
   never more crumbs than components.
   */
  lemma TrailActive(comps: seq<string>, env: Env)
    requires |comps| >= 1
    ensures var t := Trail(comps, 0, env);
      && |t| <= |comps|
      && (forall m :: 0 <= m < |t| && t[m].isActive ==> m == |t| - 1)
  {
    var t := Trail(comps, 0, env);
    var ks := Emitting(comps, 0);
    TrailIsEmitting(comps, 0, env);
    EmittingBound(comps, 0);
    EmittingIncreasing(comps, 0);
    forall m | 0 <= m < |t| && t[m].isActive
      ensures m == |t| - 1
    {
      assert t[m] == CrumbAt(comps, ks[m], env);
      assert ks[m] == |comps| - 1;
      LastIsLargest(ks, m);
    }
  }

  /** The last crumb is active exactly when the last component is not numeric. */
  lemma TrailLastActive(comps: seq<string>, env: Env)
    requires |comps| >= 1
    ensures var t := Trail(comps, 0, env);
      |t| > 0 && t[|t| - 1].isActive <==> !IsDigits(comps[|comps| - 1])
  {
    var t := Trail(comps, 0, env);
    var ks := Emitting(comps, 0);
    TrailIsEmitting(comps, 0, env);
    EmittingLast(comps);
    if |t| > 0 {
      assert t[|t| - 1] == CrumbAt(comps, ks[|ks| - 1], env);
    }
  }

  /** The last crumb position is the last component exactly when that
      component is not numeric. */
  lemma EmittingLast(comps: seq<string>)
    requires |comps| >= 1
    ensures var ks := Emitting(comps, 0);
      |ks| > 0 && ks[|ks| - 1] == |comps| - 1 <==> !IsDigits(comps[|comps| - 1])
  {
    var ks := Emitting(comps, 0);
    var last := |comps| - 1;
    if !IsDigits(comps[last]) {
      EmittingComplete(comps, 0);
      EmittingIncreasing(comps, 0);
      assert last in ks;
      var m :| 0 <= m < |ks| && ks[m] == last;
      LastIsLargest(ks, m);
    }
  }

  /** In an increasing sequence only the last element is not below the last. */
  lemma LastIsLargest(ks: seq<nat>, m: nat)
    requires forall a, b :: 0 <= a < b < |ks| ==> ks[a] < ks[b]
    requires m < |ks|
    ensures m == |ks| - 1 || ks[m] < ks[|ks| - 1]
  {
  }

  /** There are no more crumb positions than components. */
  lemma {:induction false} EmittingBound(comps: seq<string>, i: nat)
    requires i <= |comps|
    ensures |Emitting(comps, i)| <= |comps| - i
    decreases |comps| - i
  {
    if i < |comps| {
      EmittingBound(comps, i + 1);
    }
  }

  /**
   The body of the `auto_detect_from_url` loop for component `i`, whose
   accumulated path is `acc`: a numeric component is skipped, otherwise its
   crumb is added unless its title lookup raises.
   */
  method VisitComponent(out: seq<Crumb>, comps: seq<string>, i: nat, acc: string, env: Env)
    returns (out': seq<Crumb>, raised: bool)
    requires i < |comps| && acc == Accumulate(comps, i + 1)
    ensures raised <==> RaisesAt(comps, i, env)
    ensures !raised ==> out' == out + ComponentCrumbs(comps, i, env)
  {
    var component := comps[i];
    if IsDigits(component) {
      return out, false;
    }
    if TitleRaises(acc, env) {
      return out, true;
    }
    var isActive := i == |comps| - 1;
    var c := CrumbAt(comps, i, env);
    out' := Add(out, ComponentTitle(component, acc, env), if isActive then None else Some(acc), isActive);
    assert out' == out + [c];
    raised := false;
  }

  /**
   `auto_detect_from_url` on a builder holding `crumbs`: walks the components
   of the path, accumulating the path, and adds the crumb of every
   non-numeric component, unless a title lookup raises (then `raised`, and
   the trail is not returned).
   */
  method AutoDetectFromUrl(crumbs: seq<Crumb>, pathInfo: string, env: Env) returns (out: seq<Crumb>, raised: bool)
    ensures raised <==> RaisesFrom(PathComponents(pathInfo), 0, env)
    ensures !raised ==> out == crumbs + Trail(PathComponents(pathInfo), 0, env)
  {
    out, raised := WalkComponents(crumbs, PathComponents(pathInfo), env);
  }

  /** The loop of `auto_detect_from_url` over the path components `comps`. */
  method WalkComponents(crumbs: seq<Crumb>, comps: seq<string>, env: Env) returns (out: seq<Crumb>, raised: bool)
    ensures raised <==> RaisesFrom(comps, 0, env)
    ensures !raised ==> out == crumbs + Trail(comps, 0, env)
  {
    var acc := "";
    out := crumbs;
    var i := 0;
    ghost var whole := crumbs + Trail(comps, 0, env);
    ghost var raises := RaisesFrom(comps, 0, env);
    while i < |comps|
      invariant 0 <= i <= |comps|
      invariant acc == Accumulate(comps, i)
      invariant out + Trail(comps, i, env) == whole
      invariant raises == RaisesFrom(comps, i, env)
    {
      acc := acc + "/" + comps[i];
      var stop;
      ghost var before := out;
      out, stop := VisitComponent(out, comps, i, acc, env);
      RaisesStep(comps, i, env);
      if stop {
        return out, true;
      }
      TrailStep(comps, i, env);
      ShiftStep(before, ComponentCrumbs(comps, i, env), Trail(comps, i + 1, env), whole);
      i := i + 1;
    }
    assert Trail(comps, i, env) == [] && !RaisesFrom(comps, i, env);
    raised := false;
  }

  /** One step of `RaisesFrom`. */
  lemma RaisesStep(comps: seq<string>, i: nat, env: Env)
    requires i < |comps|
    ensures RaisesFrom(comps, i, env) <==> RaisesAt(comps, i, env) || RaisesFrom(comps, i + 1, env)
  {
  }

  /** Moving one step of the trail from the pending part to the collected part. */
  lemma ShiftStep(before: seq<Crumb>, step: seq<Crumb>, rest: seq<Crumb>, whole: seq<Crumb>)
    requires before + (step + rest) == whole
    ensures (before + step) + rest == whole
  {
    assert (before + step) + rest == before + (step + rest);
  }

  /** `build`: the crumbs collected so far, in the order they were added. */
  function Build(crumbs: seq<Crumb>): (r: seq<Crumb>)
    ensures |r| == |crumbs| && forall k :: 0 <= k < |r| ==> r[k] == crumbs[k]
  {
    crumbs
  }

  /** The `breadcrumbs` context processor: a fresh builder, auto-detected, then built. */
  method GetBreadcrumbs(pathInfo: string, env: Env) returns (trail: seq<Crumb>, raised: bool)
    ensures raised <==> RaisesFrom(PathComponents(pathInfo), 0, env)
    ensures !raised ==> trail == Trail(PathComponents(pathInfo), 0, env)
  {
    var out;
    out, raised := AutoDetectFromUrl([], pathInfo, env);
    trail := Build(out);
  }
}

=== FILE: canonical.dfy ===
/**
 The `advanced_canonical_url` context processor: the canonical URL of any
 page is its path with a non-default language prefix removed, and the query
 string cleaned of tracking parameters, numeric values and `page=1`; AMP
 pages also get a link to their standard page. `build_absolute_uri` and
 `urlencode` are parameters. The query is a `QueryDict` seen through its
 `items()`: one (last) value per key, keys distinct.
 */
module Canonical {
  import opened Basics

  type Query = seq<(string, string)>

  /** Tracking parameters that never belong in a canonical URL. */
  const Unwanted: set<string> := {"utm_source", "utm_medium", "fbclid", "gclid", "sessionid"}

  /** `query_params.get(key)`. */
  function Get(q: Query, key: string): (r: Option<string>)
    ensures r.Some? ==> (key, r.value) in q
    ensures r.None? ==> forall kv :: kv in q ==> kv.0 != key
  {
    if |q| == 0 then None
    else if q[0].0 == key then Some(q[0].1)
    else Get(q[1..], key)
  }

  function DropUnwanted(q: Query): Query
  {
    Filter(q, (kv: (string, string)) => kv.0 !in Unwanted)
  }

  function DropNumeric(q: Query): Query
  {
    Filter(q, (kv: (string, string)) => !IsDigits(kv.1))
  }

  function DropFirstPage(q: Query): Query
  {
    if Get(q, "page") == Some("1") then Filter(q, (kv: (string, string)) => kv.0 != "page") else q
  }

  /** The three clean-up passes, in the order the context processor runs them. */
  function CleanQuery(q: Query): Query
  {
    DropFirstPage(DropNumeric(DropUnwanted(q)))
  }

  /** After the numeric pass no value is `"1"`, so the `page=1` pass never
      removes anything. */
  lemma FirstPagePassIsIdle(q: Query)
    ensures DropFirstPage(DropNumeric(q)) == DropNumeric(q)
  {
    assert IsDigits("1");
  }

  /**
   A parameter survives exactly when it was in the request, is not a
   tracking parameter and its value is not all digits; in particular
   `page=1` never survives.
   */
  lemma CleanQueryMembers(q: Query)
    ensures forall kv :: kv in CleanQuery(q) <==> kv in q && kv.0 !in Unwanted && !IsDigits(kv.1)
    ensures ("page", "1") !in CleanQuery(q)
  {
    FirstPagePassIsIdle(DropUnwanted(q));
    assert IsDigits("1");
  }

  /** Only the listed tracking parameters are dropped by name: `utm_campaign`,
      for one, survives unless its value is numeric. */
  lemma UtmCampaignKept(q: Query, v: string)
    requires ("utm_campaign", v) in q && !IsDigits(v)
    ensures ("utm_campaign", v) in CleanQuery(q)
  {
    CleanQueryMembers(q);
  }

  /** Cleaning a cleaned query changes nothing. */
  lemma CleanQueryIdempotent(q: Query)
    ensures CleanQuery(CleanQuery(q)) == CleanQuery(q)
  {
    var c := CleanQuery(q);
    CleanQueryMembers(q);
    assert forall i :: 0 <= i < |c| ==> c[i] in c;
    assert DropUnwanted(c) == c;
    assert DropNumeric(c) == c;
    FirstPagePassIsIdle(c);
  }

  /** `path.strip('/').split('/')`, without the leading component when it is a
      configured language other than the default one. */
  function CanonicalParts(path: string, languages: set<string>, defaultLang: string): (r: seq<string>)
  {
    var parts := Split(Strip(path, {'/'}), '/');
    if parts[0] in languages && parts[0] != defaultLang then parts[1..] else parts
  }

  /** `'/' + '/'.join(path_parts) + '/'`. */
  function CanonicalPath(path: string, languages: set<string>, defaultLang: string): (r: string)
    ensures |r| >= 2 && r[0] == '/' && r[|r| - 1] == '/'
  {
    "/" + Join(CanonicalParts(path, languages, defaultLang), "/") + "/"
  }

  /** A path that does not begin with a foreign language code keeps all its
      segments: only surrounding slashes are normalised to one each. */
  lemma CanonicalPathKeepsPath(path: string, languages: set<string>, defaultLang: string)
    requires var first := Split(Strip(path, {'/'}), '/')[0]; first !in languages || first == defaultLang
    ensures CanonicalPath(path, languages, defaultLang) == "/" + Strip(path, {'/'}) + "/"
  {
    JoinSplit(Strip(path, {'/'}), '/');
  }

  /** A path whose stripped form begins with a configured non-default language
      segment loses that segment: whatever follows it, slashes included, is
      kept between single slashes. */
  lemma CanonicalPathDropsLanguage(path: string, lang: string, rest: string, languages: set<string>, defaultLang: string)
    requires lang in languages && lang != defaultLang && '/' !in lang
    requires Strip(path, {'/'}) == lang + "/" + rest
    ensures CanonicalPath(path, languages, defaultLang) == "/" + rest + "/"
  {
    assert lang + "/" + rest == lang + ['/'] + rest;
    SplitCons(lang, rest, '/');
    JoinSplit(rest, '/');
  }

  /** A path that is only a configured non-default language segment, such as
      `/ar/`, loses it and canonicalises to `//`. */
  lemma CanonicalPathLanguageOnly(path: string, lang: string, languages: set<string>, defaultLang: string)
    requires lang in languages && lang != defaultLang && '/' !in lang
    requires Strip(path, {'/'}) == lang
    ensures CanonicalPath(path, languages, defaultLang) == "//"
  {
    SplitPlain(lang, '/');
  }

  /** The shape of the example beside the language handling, `/ar/blog-title/`
      to `/blog-title/`: `/<lang>/<rest>/` becomes `/<rest>/` when `rest` has
      no slash at either end. */
  lemma LanguageSlugShape(lang: string, rest: string, languages: set<string>, defaultLang: string)
    requires lang in languages && lang != defaultLang && |lang| > 0 && '/' !in lang
    requires |rest| > 0 && rest[0] != '/' && rest[|rest| - 1] != '/'
    ensures CanonicalPath("/" + lang + "/" + rest + "/", languages, defaultLang) == "/" + rest + "/"
  {
    var path := "/" + lang + "/" + rest + "/";
    var inner := lang + "/" + rest;
    assert path == ['/'] + inner + ['/'];
    assert inner[0] == lang[0] && inner[|inner| - 1] == rest[|rest| - 1];
    StripFramed(inner, '/', {'/'});
    CanonicalPathDropsLanguage(path, lang, rest, languages, defaultLang);
  }

  /** The site root canonicalises to `//`, since the stripped root path splits
      into one empty segment. */
  lemma RootCanonicalPath(languages: set<string>, defaultLang: string)
    ensures CanonicalPath("/", languages, defaultLang) == "//"
  {
    assert Strip("/", {'/'}) == "";
    assert Split("", '/') == [""];
  }

  /** `path.replace('/amp/', '/')` on `/amp/<rest>` with no further `/amp/`
      gives `/<rest>`. */
  lemma AmpStandardPath(rest: string)
    requires forall i: nat :: !OccursAt(rest, "/amp/", i)
    ensures ReplaceAll("/amp/" + rest, "/amp/", "/") == "/" + rest
  {
    var s := "/amp/" + rest;
    assert s[..5] == "/amp/";
    assert s[5..] == rest;
  }

  datatype CanonicalContext = CanonicalContext(canonicalUrl: string, ampCanonical: Option<string>, queryParams: Query)

  /**
   `advanced_canonical_url`: the absolute canonical path, followed by `?` and
   the encoded cleaned query only when some parameter survives; the AMP link
   is present exactly for paths under `/amp/`.
   */
  function AdvancedCanonicalUrl(path: string, get: Query, languages: set<string>, defaultLang: string,
                                absolute: string -> string, encode: Query -> string): (r: CanonicalContext)
    ensures r.queryParams == CleanQuery(get)
    ensures |r.queryParams| == 0 ==> r.canonicalUrl == absolute(CanonicalPath(path, languages, defaultLang))
    ensures |r.queryParams| > 0 ==>
      r.canonicalUrl == absolute(CanonicalPath(path, languages, defaultLang)) + "?" + encode(r.queryParams)
    ensures r.ampCanonical.Some? <==> StartsWith(path, "/amp/")
    ensures r.ampCanonical.Some? ==> r.ampCanonical.value == absolute(ReplaceAll(path, "/amp/", "/"))
  {
    var params := CleanQuery(get);
    var url := absolute(CanonicalPath(path, languages, defaultLang));
    var amp := if StartsWith(path, "/amp/") then Some(absolute(ReplaceAll(path, "/amp/", "/"))) else None;
    CanonicalContext(if |params| > 0 then url + "?" + encode(params) else url, amp, params)
  }

  /** A request carrying only tracking or numeric parameters gets a canonical
      URL without any query string. */
  lemma NoQueryForTrackingOnly(path: string, get: Query, languages: set<string>, defaultLang: string,
                               absolute: string -> string, encode: Query -> string)
    requires forall kv :: kv in get ==> kv.0 in Unwanted || IsDigits(kv.1)
    ensures AdvancedCanonicalUrl(path, get, languages, defaultLang, absolute, encode).canonicalUrl ==
      absolute(CanonicalPath(path, languages, defaultLang))
  {
    CleanQueryMembers(get);
    var c := CleanQuery(get);
    assert forall i :: 0 <= i < |c| ==> c[i] in c;
  }
}

=== FILE: mixins.dfy ===
/**
 The two view mixins: `BreadcrumbMixin`, which turns a list of
 (title, url item) pairs into crumbs with resolved links, and
 `SmartCanonicalMixin`, which builds a view's canonical URL from its object,
 a named route or the request path, keeping only whitelisted query
 parameters. URL reversal, `build_absolute_uri` and `urlencode` are
 parameters of the model.
 */
module Mixins {
  import opened Basics

  // ---------------------------------------------------------------------------
  // BreadcrumbMixin
  // ---------------------------------------------------------------------------

  /**
   What a breadcrumb entry may carry as its link: nothing (`None`), a string,
   a callable (reduced to the URL it returns, `None` when it raises or
   returns nothing), or any other value (reduced to its text).
   */
  datatype UrlItem = NoUrl | Text(s: string) | Callable(outcome: Option<string>) | Other(value: string)

  /**
   `resolve_breadcrumb_url`: no link for `None` or `""`; a string with a
   colon is a route name to reverse (`None` when reversal fails); any other
   string is the link itself; a callable gives what it returns; anything
   else is passed through.
   */
  function ResolveBreadcrumbUrl(item: UrlItem, reverse: string -> Option<string>): (r: Option<string>)
    ensures item == NoUrl || item == Text("") ==> r == None
    ensures item.Text? && ':' in item.s ==> r == reverse(item.s)
    ensures item.Text? && item.s != "" && ':' !in item.s ==> r == Some(item.s)
    ensures item.Callable? ==> r == item.outcome
    ensures item.Other? ==> r == Some(item.value)
  {
    match item
    case NoUrl => None
    case Text(s) =>
      if s == "" then None
      else if ':' in s then reverse(s)
      else Some(s)
    case Callable(outcome) => outcome
    case Other(v) => Some(v)
  }

  /** A plain link never depends on the route table, and never vanishes. */
  lemma PlainLinkKept(s: string, reverse1: string -> Option<string>, reverse2: string -> Option<string>)
    requires s != "" && ':' !in s
    ensures ResolveBreadcrumbUrl(Text(s), reverse1) == ResolveBreadcrumbUrl(Text(s), reverse2) == Some(s)
  {
  }

  datatype CrumbData = CrumbData(title: string, url: Option<string>)

  /** `get_context_data` of `BreadcrumbMixin`: one crumb per entry, in order,
      with the entry's title and its resolved link. */
  function BreadcrumbContext(entries: seq<(string, UrlItem)>, reverse: string -> Option<string>): (r: seq<CrumbData>)
    ensures |r| == |entries|
    ensures forall k :: 0 <= k < |r| ==> r[k].title == entries[k].0
    ensures forall k :: 0 <= k < |r| ==> r[k].url == ResolveBreadcrumbUrl(entries[k].1, reverse)
  {
    seq(|entries|, k requires 0 <= k < |entries| => CrumbData(entries[k].0, ResolveBreadcrumbUrl(entries[k].1, reverse)))
  }

  /** The entries that end up without a link: an empty item, a route name that
      does not reverse, or a callable that raises or returns nothing. */
  predicate Unlinked(item: UrlItem, reverse: string -> Option<string>)
  {
    match item
    case NoUrl => true
    case Text(s) => s == "" || (':' in s && reverse(s).None?)
    case Callable(outcome) => outcome.None?
    case Other(_) => false
  }

  /** A crumb of the context has no link exactly when its entry is unlinked;
      every other crumb carries the resolved link. */
  lemma ContextLinks(entries: seq<(string, UrlItem)>, reverse: string -> Option<string>)
    ensures forall k :: 0 <= k < |entries| ==>
      (BreadcrumbContext(entries, reverse)[k].url.None? <==> Unlinked(entries[k].1, reverse))
  {
  }

  // ---------------------------------------------------------------------------
  // SmartCanonicalMixin
  // ---------------------------------------------------------------------------

  /** An ordered dictionary of query parameters, as Python's `dict`. */
  type Params = seq<(string, string)>

  predicate HasKey(d: Params, k: string)
  {
    exists i :: 0 <= i < |d| && d[i].0 == k
  }

  /** No key occurs twice. */
  predicate DistinctKeys(d: Params)
  {
    forall i, j :: 0 <= i < j < |d| ==> d[i].0 != d[j].0
  }

  /** `d[k] = v`: replaces the value in place when `k` is present, appends otherwise. */
  function Put(d: Params, k: string, v: string): (r: Params)
    ensures HasKey(d, k) ==> |r| == |d|
    ensures !HasKey(d, k) ==> r == d + [(k, v)]
    ensures forall i :: 0 <= i < |d| ==> r[i].0 == d[i].0
    ensures forall i :: 0 <= i < |d| && d[i].0 != k ==> r[i] == d[i]
    ensures forall i :: 0 <= i < |d| && d[i].0 == k ==> r[i].1 == v
  {
    if HasKey(d, k) then seq(|d|, i requires 0 <= i < |d| => if d[i].0 == k then (k, v) else d[i])
    else d + [(k, v)]
  }

  /**
   The parameters kept for the canonical URL: walking the whitelist in
   order, every name present in the request's GET data is set to its value
   there. The request's GET data is a map (one value per key).
   */
  function SelectedParams(whitelist: seq<string>, get: map<string, string>): (r: Params)
    ensures |r| <= |whitelist|
    decreases |whitelist|
  {
    if |whitelist| == 0 then []
    else
      var d := SelectedParams(whitelist[..|whitelist| - 1], get);
      var p := whitelist[|whitelist| - 1];
      if p in get then Put(d, p, get[p]) else d
  }

  /** A name of the whitelist other than its last one is in the front part. */
  lemma InFront(whitelist: seq<string>, q: string)
    requires |whitelist| > 0 && q in whitelist && q != whitelist[|whitelist| - 1]
    ensures q in whitelist[..|whitelist| - 1]
  {
    var k :| 0 <= k < |whitelist| && whitelist[k] == q;
    assert whitelist[..|whitelist| - 1][k] == q;
  }

  /** `kv` is a whitelisted name present in the request, with the request's value. */
  predicate KeptFrom(kv: (string, string), whitelist: seq<string>, get: map<string, string>)
  {
    kv.0 in whitelist && kv.0 in get && kv.1 == get[kv.0]
  }

  /** Every kept parameter is a whitelisted name present in the request,
      with the request's value. */
  lemma {:induction false} SelectedSound(whitelist: seq<string>, get: map<string, string>)
    ensures forall i :: 0 <= i < |SelectedParams(whitelist, get)| ==>
      KeptFrom(SelectedParams(whitelist, get)[i], whitelist, get)
    decreases |whitelist|
  {
    if |whitelist| > 0 {
      var front := whitelist[..|whitelist| - 1];
      var d := SelectedParams(front, get);
      var p := whitelist[|whitelist| - 1];
      var r := SelectedParams(whitelist, get);
      SelectedSound(front, get);
      forall i | 0 <= i < |r|
        ensures KeptFrom(r[i], whitelist, get)
      {
        if i < |d| {
          assert KeptFrom(d[i], front, get);
          if r[i].0 == p {
            assert r[i].1 == get[p];
          } else {
            assert r[i] == d[i];
          }
        } else {
          assert r[i] == (p, get[p]);
        }
      }
    }
  }

  /** No name is kept twice. */
  lemma {:induction false} SelectedDistinct(whitelist: seq<string>, get: map<string, string>)
    ensures DistinctKeys(SelectedParams(whitelist, get))
    decreases |whitelist|
  {
    if |whitelist| > 0 {
      var front := whitelist[..|whitelist| - 1];
      var d := SelectedParams(front, get);
      var p := whitelist[|whitelist| - 1];
      SelectedDistinct(front, get);
      if p in get && !HasKey(d, p) {
        var r := d + [(p, get[p])];
        forall i, j | 0 <= i < j < |r|
          ensures r[i].0 != r[j].0
        {
          if j == |d| {
            assert r[i].0 == d[i].0;
          }
        }
      }
    }
  }

  /** Every whitelisted name present in the request is kept. */
  lemma {:induction false} SelectedComplete(whitelist: seq<string>, get: map<string, string>, q: string)
    requires q in whitelist && q in get
    ensures HasKey(SelectedParams(whitelist, get), q)
    decreases |whitelist|
  {
    var front := whitelist[..|whitelist| - 1];
    var d := SelectedParams(front, get);
    var p := whitelist[|whitelist| - 1];
    var r := SelectedParams(whitelist, get);
    if q == p {
      if HasKey(d, p) {
        var i :| 0 <= i < |d| && d[i].0 == p;
        assert r[i].0 == p;
      } else {
        assert r[|d|].0 == p;
      }
    } else {
      InFront(whitelist, q);
      SelectedComplete(front, get, q);
      var i :| 0 <= i < |d| && d[i].0 == q;
      assert r[i].0 == q;
    }
  }

  /** Nothing is kept exactly when no whitelisted name is in the request. */
  lemma SelectedParamsEmpty(whitelist: seq<string>, get: map<string, string>)
    ensures |SelectedParams(whitelist, get)| == 0 <==> forall p :: p in whitelist ==> p !in get
  {
    var r := SelectedParams(whitelist, get);
    if |r| > 0 {
      SelectedSound(whitelist, get);
      assert KeptFrom(r[0], whitelist, get);
    } else {
      forall p | p in whitelist
        ensures p !in get
      {
        if p in get {
          SelectedComplete(whitelist, get, p);
        }
      }
    }
  }

  /** What `self.object.get_absolute_url()` does: there is no object (or it has
      no such method), it returns a URL (possibly empty), or it raises. */
  datatype ObjectUrl = NoObject | Returned(url: string) | Raised

  /** The inputs of `get_canonical_url`: the view's object, its configured
      route name (`""` when unset), whitelist, and the request. */
  datatype CanonicalView = CanonicalView(
    obj: ObjectUrl,
    viewName: string,
    includeParams: seq<string>,
    pathInfo: string,
    path: string,
    get: map<string, string>)

  /**
   `SmartCanonicalMixin.get_canonical_url`. A non-empty object URL wins;
   otherwise the reversed route name (or the path info) with the kept
   parameters, `?` only when some are kept; a raising object lookup or a
   failed reversal falls back to the request path. `absolute` stands for
   `build_absolute_uri` and `encode` for `urlencode`.
   */
  function GetCanonicalUrl(v: CanonicalView, reverse: string -> Option<string>,
                           absolute: string -> string, encode: Params -> string): (r: string)
    ensures v.obj.Returned? && v.obj.url != "" ==> r == absolute(v.obj.url)
    ensures v.obj == Raised ==> r == absolute(v.path)
    ensures !(v.obj.Returned? && v.obj.url != "") && v.obj != Raised && v.viewName != "" && reverse(v.viewName).None? ==>
      r == absolute(v.path)
    ensures !(v.obj.Returned? && v.obj.url != "") && v.obj != Raised && v.viewName == "" &&
            (forall p :: p in v.includeParams ==> p !in v.get) ==>
      r == absolute(v.pathInfo)
    ensures !(v.obj.Returned? && v.obj.url != "") && v.obj != Raised && v.viewName != "" && reverse(v.viewName).Some? &&
            (forall p :: p in v.includeParams ==> p !in v.get) ==>
      r == absolute(reverse(v.viewName).value)
  {
    SelectedParamsEmpty(v.includeParams, v.get);
    if v.obj == Raised then absolute(v.path)
    else if v.obj.Returned? && v.obj.url != "" then absolute(v.obj.url)
    else
      var base :=
        if v.viewName != "" then reverse(v.viewName)
        else Some(v.pathInfo);
      if base.None? then absolute(v.path)
      else
        var params := SelectedParams(v.includeParams, v.get);
        if |params| > 0 then absolute(base.value + "?" + encode(params))
        else absolute(base.value)
  }

  /** When some whitelisted parameter is present, the URL built from the route
      or path carries a query string of exactly the kept parameters. */
  lemma CanonicalCarriesQuery(v: CanonicalView, reverse: string -> Option<string>,
                              absolute: string -> string, encode: Params -> string, p: string)
    requires !(v.obj.Returned? && v.obj.url != "") && v.obj != Raised
    requires v.viewName == "" || reverse(v.viewName).Some?
    requires p in v.includeParams && p in v.get
    ensures var base := if v.viewName != "" then reverse(v.viewName).value else v.pathInfo;
      GetCanonicalUrl(v, reverse, absolute, encode) ==
        absolute(base + "?" + encode(SelectedParams(v.includeParams, v.get)))
  {
    SelectedParamsEmpty(v.includeParams, v.get);
  }
}

=== FILE: posts.dfy ===
/**
 The blog post, category and social-link models: the field defaults filled in
 on save, slug de-duplication, the `clean` validators, the canonical-URL
 precedence of a post, its reading-time estimate, and the icon of a social
 link. The slug table is the set of slugs already stored; `slugify` and the
 `blog_detail` route are parameters. Nullable text fields are `""` when
 unset, since the code only tests their truthiness; image fields are
 `Option`s.
 */
module Posts {
  import opened Basics

  // ---------------------------------------------------------------------------
  // Slugs
  // ---------------------------------------------------------------------------

  /** The `k`-th alternative to a taken slug: `f"{base}-{k}"`. */
  function Candidate(base: string, k: nat): string
  {
    base + "-" + NatToString(k)
  }

  /** Different counters give different alternatives. */
  lemma CandidateInjective(base: string, j: nat, k: nat)
    requires Candidate(base, j) == Candidate(base, k)
    ensures j == k
  {
    assert Candidate(base, j)[|base| + 1..] == NatToString(j);
    assert Candidate(base, k)[|base| + 1..] == NatToString(k);
    NatToStringInjective(j, k);
  }

  /**
   The slug loop of `Blogs.save`: `base` itself when no stored post uses it,
   otherwise `base-k` for the least `k >= 1` that is free. It always ends,
   since only finitely many slugs are taken.
   */
  method UniqueSlug(base: string, taken: set<string>) returns (slug: string)
    ensures slug !in taken
    ensures base !in taken ==> slug == base
    ensures base in taken ==>
      exists k: nat :: 1 <= k && slug == Candidate(base, k) &&
        forall j: nat :: 1 <= j < k ==> Candidate(base, j) in taken
  {
    slug := base;
    if base !in taken {
      return;
    }
    var counter: nat := 1;
    ghost var seen: set<string> := {};
    slug := Candidate(base, counter);
    while slug in taken
      invariant 1 <= counter
      invariant slug == Candidate(base, counter)
      invariant forall j: nat :: 1 <= j < counter ==> Candidate(base, j) in taken
      invariant seen <= taken
      invariant forall s :: s in seen ==> exists j: nat :: 1 <= j < counter && s == Candidate(base, j)
      decreases taken - seen
    {
      if slug in seen {
        var j: nat :| 1 <= j < counter && slug == Candidate(base, j);
        CandidateInjective(base, j, counter);
        assert false;
      }
      seen := seen + {slug};
      counter := counter + 1;
      slug := Candidate(base, counter);
    }
  }

  // ---------------------------------------------------------------------------
  // Blog posts
  // ---------------------------------------------------------------------------

  /** A stored post as another post refers to it: only its key and slug matter. */
  datatype PostRef = PostRef(pk: Option<int>, slug: string)

  datatype Post = Post(
    pk: Option<int>,
    title: string,
    slug: string,
    shortDescription: string,
    metaTitle: string,
    metaDescription: string,
    ogTitle: string,
    ogDescription: string,
    blogImage: Option<string>,
    ogImage: Option<string>,
    canonicalUrl: string,
    parent: Option<PostRef>)

  const MetaTitleMax := 70
  const MetaDescriptionMax := 300

  /** A primary key is truthy when present and non-zero. */
  predicate Saved(pk: Option<int>)
  {
    pk.Some? && pk.value != 0
  }

  /**
   The meta and Open Graph defaults of `Blogs.save`: each empty field is
   filled, the meta ones from the title and short description (truncated to
   their limits), the OG ones from the meta fields as just defaulted; the OG
   image is copied from the blog image only when there is one. Nothing else
   changes.
   */
  function FillDefaults(p: Post): (q: Post)
    ensures q == p.(metaTitle := q.metaTitle, metaDescription := q.metaDescription,
                    ogTitle := q.ogTitle, ogDescription := q.ogDescription, ogImage := q.ogImage)
    ensures p.metaTitle != "" ==> q.metaTitle == p.metaTitle
    ensures p.metaTitle == "" ==> StartsWith(p.title, q.metaTitle) && |q.metaTitle| == if |p.title| <= MetaTitleMax then |p.title| else MetaTitleMax
    ensures p.metaDescription != "" ==> q.metaDescription == p.metaDescription
    ensures p.metaDescription == "" ==>
      StartsWith(p.shortDescription, q.metaDescription) &&
      |q.metaDescription| == if |p.shortDescription| <= MetaDescriptionMax then |p.shortDescription| else MetaDescriptionMax
    ensures q.ogTitle == if p.ogTitle != "" then p.ogTitle else q.metaTitle
    ensures q.ogDescription == if p.ogDescription != "" then p.ogDescription else q.metaDescription
    ensures q.ogImage == if p.ogImage.None? then p.blogImage else p.ogImage
  {
    var mt := if p.metaTitle == "" then Take(p.title, MetaTitleMax) else p.metaTitle;
    var md := if p.metaDescription == "" then Take(p.shortDescription, MetaDescriptionMax) else p.metaDescription;
    p.(metaTitle := mt,
       metaDescription := md,
       ogTitle := if p.ogTitle == "" then mt else p.ogTitle,
       ogDescription := if p.ogDescription == "" then md else p.ogDescription,
       ogImage := if p.ogImage.None? && p.blogImage.Some? then p.blogImage else p.ogImage)
  }

  /** Saving twice fills nothing more. */
  lemma FillDefaultsIdempotent(p: Post)
    ensures FillDefaults(FillDefaults(p)) == FillDefaults(p)
  {
    var q := FillDefaults(p);
    if q.metaTitle == "" {
      assert p.metaTitle == "" && |p.title| == 0;
    }
    if q.metaDescription == "" {
      assert p.metaDescription == "" && |p.shortDescription| == 0;
    }
  }

  /**
   `Blogs.save`: a post without a slug gets a free one derived from its
   title (a post with a slug keeps it), then the meta and OG defaults.
   */
  method SavePost(p: Post, taken: set<string>, slugify: string -> string) returns (q: Post)
    ensures p.slug != "" ==> q == FillDefaults(p)
    ensures p.slug == "" ==> q == FillDefaults(p.(slug := q.slug))
    ensures p.slug == "" ==> q.slug !in taken
    ensures p.slug == "" && slugify(p.title) !in taken ==> q.slug == slugify(p.title)
    ensures p.slug == "" && slugify(p.title) in taken ==>
      exists k: nat :: 1 <= k && q.slug == Candidate(slugify(p.title), k) &&
        forall j: nat :: 1 <= j < k ==> Candidate(slugify(p.title), j) in taken
  {
    var slug := p.slug;
    if slug == "" {
      slug := UniqueSlug(slugify(p.title), taken);
    }
    q := FillDefaults(p.(slug := slug));
  }

  /** Why `clean` rejects a model: the offending field. */
  datatype CleanResult = Valid | Invalid(field: string)

  predicate SlugChar(c: char)
  {
    'a' <= c <= 'z' || IsDigit(c) || c == '-'
  }

  function DropFinalNewline(s: string): string
  {
    if |s| > 0 && s[|s| - 1] == '\n' then s[..|s| - 1] else s
  }

  /**
   `re.match(r'^[a-z0-9-]+$', slug)`: one or more slug characters, where
   Python's `$` also matches just before one final newline.
   */
  predicate SlugMatches(s: string)
  {
    var t := DropFinalNewline(s);
    |t| > 0 && forall i :: 0 <= i < |t| ==> SlugChar(t[i])
  }

  /** The pattern accepts a slug followed by one newline, and not two. */
  lemma SlugTrailingNewline(s: string)
    requires |s| > 0 && forall i :: 0 <= i < |s| ==> SlugChar(s[i])
    ensures SlugMatches(s)
    ensures SlugMatches(s + "\n")
    ensures !SlugMatches(s + "\n\n")
  {
    assert (s + "\n")[..|s|] == s;
    var t := DropFinalNewline(s + "\n\n");
    assert t[|s|] == '\n';
  }

  /**
   `Blogs.clean`: the slug (when set) must match the slug pattern, then the
   meta title (when set) may have at most 70 characters, then the meta
   description at most 300; the first failing test is reported.
   */
  function CleanPost(p: Post): (r: CleanResult)
    ensures r == Valid <==>
      (p.slug == "" || SlugMatches(p.slug)) &&
      |p.metaTitle| <= MetaTitleMax && |p.metaDescription| <= MetaDescriptionMax
    ensures r == Invalid("slug") <==> p.slug != "" && !SlugMatches(p.slug)
    ensures r == Invalid("meta_title") <==>
      (p.slug == "" || SlugMatches(p.slug)) && |p.metaTitle| > MetaTitleMax
    ensures r.Invalid? ==> r.field in {"slug", "meta_title", "meta_description"}
  {
    if p.slug != "" && !SlugMatches(p.slug) then Invalid("slug")
    else if p.metaTitle != "" && |p.metaTitle| > MetaTitleMax then Invalid("meta_title")
    else if p.metaDescription != "" && |p.metaDescription| > MetaDescriptionMax then Invalid("meta_description")
    else Valid
  }

  /** The defaults of `save` never make `clean` reject a post: filled meta
      fields are within their limits. */
  lemma DefaultsPassClean(p: Post)
    requires CleanPost(p) == Valid
    ensures CleanPost(FillDefaults(p)) == Valid
  {
  }

  /** `Blogs.get_absolute_url`: the `blog_detail` route of the slug, only for a
      saved post with a slug. */
  function AbsoluteUrl(pk: Option<int>, slug: string, blogDetail: string -> string): (r: Option<string>)
    ensures r.Some? <==> Saved(pk) && slug != ""
    ensures r.Some? ==> r.value == blogDetail(slug)
  {
    if Saved(pk) && slug != "" then Some(blogDetail(slug)) else None
  }

  /**
   `Blogs.get_canonical_url`: the explicit override, else the original
   post's URL for a translation, else the post's own URL.
   */
  function CanonicalUrl(p: Post, blogDetail: string -> string): (r: Option<string>)
    ensures p.canonicalUrl != "" ==> r == Some(p.canonicalUrl)
    ensures p.canonicalUrl == "" && p.parent.Some? ==>
      r == AbsoluteUrl(p.parent.value.pk, p.parent.value.slug, blogDetail)
    ensures p.canonicalUrl == "" && p.parent.None? ==> r == AbsoluteUrl(p.pk, p.slug, blogDetail)
  {
    if p.canonicalUrl != "" then Some(p.canonicalUrl)
    else if p.parent.Some? then AbsoluteUrl(p.parent.value.pk, p.parent.value.slug, blogDetail)
    else AbsoluteUrl(p.pk, p.slug, blogDetail)
  }

  /** All translations of one saved original share its canonical URL, unless
      they override it; the translations' own slugs play no part. */
  lemma TranslationsShareCanonical(a: Post, b: Post, original: PostRef, blogDetail: string -> string)
    requires a.canonicalUrl == "" && b.canonicalUrl == ""
    requires a.parent == Some(original) && b.parent == Some(original)
    requires Saved(original.pk) && original.slug != ""
    ensures CanonicalUrl(a, blogDetail) == CanonicalUrl(b, blogDetail) == Some(blogDetail(original.slug))
  {
  }

  const WordsPerMinute := 200

  /** Python's `round(words / 200)`: to the nearest integer, halves to even. */
  function RoundedMinutes(words: nat): (r: nat)
    ensures r * WordsPerMinute - WordsPerMinute / 2 <= words <= r * WordsPerMinute + WordsPerMinute / 2
    ensures words % WordsPerMinute == WordsPerMinute / 2 ==> r % 2 == 0
  {
    var q := words / WordsPerMinute;
    var rem := words % WordsPerMinute;
    if rem < WordsPerMinute / 2 then q
    else if rem > WordsPerMinute / 2 then q + 1
    else if q % 2 == 0 then q else q + 1
  }

  /** `estimated_reading_time`: the rounded minutes for the word count, but at
      least one. The word count of the tag-stripped body is a parameter. */
  function ReadingMinutes(words: nat): (r: nat)
    ensures r >= 1
    ensures words >= WordsPerMinute / 2 + 1 ==> r == RoundedMinutes(words)
    ensures words <= WordsPerMinute / 2 ==> r == 1
  {
    Max(1, RoundedMinutes(words)) as nat
  }

  /** More words never mean fewer minutes. */
  lemma ReadingMinutesMonotone(a: nat, b: nat)
    requires a <= b
    ensures ReadingMinutes(a) <= ReadingMinutes(b)
  {
    var qa, qb := a / WordsPerMinute, b / WordsPerMinute;
    assert qa <= qb;
  }

  // ---------------------------------------------------------------------------
  // Categories
  // ---------------------------------------------------------------------------

  datatype Category = Category(name: string, metaTitle: string, metaDescription: string)

  const TitleSuffix := " - Articles & Insights"
  const DescriptionPrefix := "Browse the latest articles and insights about "

  /** `Category.clean`: meta title at most 70 characters, then meta description
      at most 300. */
  function CleanCategory(c: Category): (r: CleanResult)
    ensures r == Valid <==> |c.metaTitle| <= MetaTitleMax && |c.metaDescription| <= MetaDescriptionMax
    ensures r == Invalid("meta_title") <==> |c.metaTitle| > MetaTitleMax
  {
    if c.metaTitle != "" && |c.metaTitle| > MetaTitleMax then Invalid("meta_title")
    else if c.metaDescription != "" && |c.metaDescription| > MetaDescriptionMax then Invalid("meta_description")
    else Valid
  }

  /** `Category.save` as written: empty meta fields get a title and a
      description built around the category name. */
  function SaveCategory(c: Category): (r: Category)
    ensures r.name == c.name
    ensures c.metaTitle != "" ==> r.metaTitle == c.metaTitle
    ensures c.metaTitle == "" ==> r.metaTitle == c.name + TitleSuffix
    ensures c.metaDescription != "" ==> r.metaDescription == c.metaDescription
    ensures c.metaDescription == "" ==> r.metaDescription == DescriptionPrefix + c.name + "."
  {
    c.(metaTitle := if c.metaTitle == "" then c.name + TitleSuffix else c.metaTitle,
       metaDescription := if c.metaDescription == "" then DescriptionPrefix + c.name + "." else c.metaDescription)
  }

  /**
   A category name of the maximum length (50) gives a default meta title of
   72 characters, which `Category.clean` then rejects.
   */
  lemma SaveCategoryOverlongTitle(name: string)
    requires |name| == 50
    ensures var c := SaveCategory(Category(name, "", ""));
      |c.metaTitle| == 72 && CleanCategory(c) == Invalid("meta_title")
  {
  }

  /** The default title fits exactly when the name has at most 48 characters. */
  lemma SaveCategoryTitleBound(c: Category)
    requires c.metaTitle == ""
    ensures |SaveCategory(c).metaTitle| <= MetaTitleMax <==> |c.name| <= 48
  {
  }

  /** `Category.save` with the default meta title cut to its 70-character limit. */
  function SaveCategoryFixed(c: Category): (r: Category)
    ensures r.name == c.name
    ensures c.metaTitle != "" ==> r.metaTitle == c.metaTitle
    ensures c.metaTitle == "" ==> r.metaTitle == Take(c.name + TitleSuffix, MetaTitleMax)
    ensures r.metaDescription == SaveCategory(c).metaDescription
  {
    var s := SaveCategory(c);
    s.(metaTitle := if c.metaTitle == "" then Take(s.metaTitle, MetaTitleMax) else s.metaTitle)
  }

  /** With the cut, saving a category that `clean` accepts, whose name fits its
      50-character column, yields one that `clean` still accepts. */
  lemma SaveCategoryFixedClean(c: Category)
    requires |c.name| <= 50
    requires CleanCategory(c) == Valid
    ensures CleanCategory(SaveCategoryFixed(c)) == Valid
  {
  }

  // ---------------------------------------------------------------------------
  // Social media links
  // ---------------------------------------------------------------------------

  /** The placeholder icon class a new link starts with. */
  const IconPlaceholder := "fab fa-"

  const IconMap: map<string, string> := map[
    "facebook" := "fab fa-facebook-f",
    "twitter" := "fab fa-twitter",
    "instagram" := "fab fa-instagram",
    "linkedin" := "fab fa-linkedin-in",
    "pinterest" := "fab fa-pinterest",
    "youtube" := "fab fa-youtube",
    "tiktok" := "fab fa-tiktok",
    "whatsapp" := "fab fa-whatsapp",
    "telegram" := "fab fa-telegram"
  ]

  /**
   `SocialMedia.get_icon_class`: a configured class other than the
   placeholder wins; otherwise the platform's class from the map, or
   `fab fa-link` for an unknown platform. The result is never empty and never
   the placeholder.
   */
  function IconClass(platform: string, iconClass: string): (r: string)
    ensures iconClass != "" && iconClass != IconPlaceholder ==> r == iconClass
    ensures (iconClass == "" || iconClass == IconPlaceholder) && platform in IconMap ==> r == IconMap[platform]
    ensures (iconClass == "" || iconClass == IconPlaceholder) && platform !in IconMap ==> r == "fab fa-link"
    ensures r != "" && r != IconPlaceholder
  {
    if iconClass != "" && iconClass != IconPlaceholder then iconClass
    else if platform in IconMap then IconMap[platform]
    else "fab fa-link"
  }
}

=== FILE: views.dfy ===
/**
 The request handlers with decision logic: the ad impression/click tracking
 endpoints, the home page's ad lists, and the newsletter subscription and
 broadcast guard chains. Responses are reduced to what they report; JSON,
 templates and e-mail delivery are outside the model (the outcome of sending
 mail is a parameter).
 */
module Views {
  import opened Basics
  import opened Ads

  // ---------------------------------------------------------------------------
  // Ad tracking endpoints
  // ---------------------------------------------------------------------------

  /** What a tracking endpoint answers: success with the id, a 404 for an
      unknown id, or the 405 of `require_POST` for other methods. */
  datatype TrackResponse = TrackSuccess(adId: int) | AdNotFound | MethodNotAllowed

  /** Shared body of the two tracking endpoints: fetch by id, add one, save. */
  function Track(store: seq<Ad>, isPost: bool, adId: int, c: Counter): (r: (TrackResponse, seq<Ad>))
    ensures !isPost ==> r == (MethodNotAllowed, store)
    ensures isPost && !HasId(store, adId) ==> r == (AdNotFound, store)
    ensures isPost && HasId(store, adId) ==> r.0 == TrackSuccess(adId)
    ensures |r.1| == |store|
    ensures isPost && HasId(store, adId) ==>
      forall j :: 0 <= j < |store| ==> r.1[j] == if store[j].id == adId then Bump(store[j], c) else store[j]
  {
    if !isPost then (MethodNotAllowed, store)
    else if !HasId(store, adId) then (AdNotFound, store)
    else (TrackSuccess(adId), BumpById(store, adId, c))
  }

  /** `record_ad_impression`: one more impression on the ad with that id, and
      nothing else changes (no clicks, no other row). */
  function RecordAdImpression(store: seq<Ad>, isPost: bool, adId: int): (r: (TrackResponse, seq<Ad>))
    ensures !isPost ==> r == (MethodNotAllowed, store)
    ensures isPost && !HasId(store, adId) ==> r == (AdNotFound, store)
    ensures isPost && HasId(store, adId) ==> r.0 == TrackSuccess(adId)
    ensures |r.1| == |store|
    ensures isPost && HasId(store, adId) ==>
      forall j :: 0 <= j < |store| ==>
        r.1[j] == if store[j].id == adId then store[j].(impressions := store[j].impressions + 1) else store[j]
  {
    Track(store, isPost, adId, Impressions)
  }

  /** `record_ad_click`: one more click on the ad with that id, and nothing
      else changes (no impressions, no other row). */
  function RecordAdClick(store: seq<Ad>, isPost: bool, adId: int): (r: (TrackResponse, seq<Ad>))
    ensures !isPost ==> r == (MethodNotAllowed, store)
    ensures isPost && !HasId(store, adId) ==> r == (AdNotFound, store)
    ensures isPost && HasId(store, adId) ==> r.0 == TrackSuccess(adId)
    ensures |r.1| == |store|
    ensures isPost && HasId(store, adId) ==>
      forall j :: 0 <= j < |store| ==>
        r.1[j] == if store[j].id == adId then store[j].(clicks := store[j].clicks + 1) else store[j]
  {
    Track(store, isPost, adId, Clicks)
  }

  /** With unique ids, a successful tracking call changes exactly one row, by one. */
  lemma TrackChangesOneRow(store: seq<Ad>, adId: int, c: Counter, k: nat)
    requires UniqueIds(store)
    requires k < |store| && store[k].id == adId
    ensures Track(store, true, adId, c).1[k] == Bump(store[k], c)
    ensures forall j :: 0 <= j < |store| && j != k ==> Track(store, true, adId, c).1[j] == store[j]
  {
    assert HasId(store, adId);
    forall j | 0 <= j < |store| && j != k
      ensures store[j].id != adId
    {
      if j < k {
        assert store[j].id != store[k].id;
      } else {
        assert store[k].id != store[j].id;
      }
    }
  }

  // ---------------------------------------------------------------------------
  // Home page ads
  // ---------------------------------------------------------------------------

  const SidebarAreas: set<string> := {"SIDEBAR_TOP", "SIDEBAR_BOTTOM"}
  const ContentAreas: set<string> := {"CONTENT_TOP", "CONTENT_MIDDLE", "CONTENT_BOTTOM"}

  /** The home page filter: one of the areas, active, and a null-tolerant date
      window. There is no display-cap test. */
  predicate HomeEligible(a: Ad, areas: set<string>, now: int)
  {
    a.placement in areas && a.isActive && Started(a, now) && NotEnded(a, now)
  }

  /** The sidebar and content ad lists of `home`: exactly the eligible rows,
      highest priority first (ties in any order). */
  method HomeAds(store: seq<Ad>, now: int) returns (sidebar: seq<Ad>, content: seq<Ad>)
    ensures multiset(sidebar) == multiset(Filter(store, (a: Ad) => HomeEligible(a, SidebarAreas, now)))
    ensures multiset(content) == multiset(Filter(store, (a: Ad) => HomeEligible(a, ContentAreas, now)))
    ensures forall a :: a in sidebar <==> a in store && HomeEligible(a, SidebarAreas, now)
    ensures forall a :: a in content <==> a in store && HomeEligible(a, ContentAreas, now)
    ensures ByPriority(sidebar) && ByPriority(content)
  {
    sidebar := OrderByPriority(Filter(store, (a: Ad) => HomeEligible(a, SidebarAreas, now)));
    content := OrderByPriority(Filter(store, (a: Ad) => HomeEligible(a, ContentAreas, now)));
  }

  // ---------------------------------------------------------------------------
  // Newsletter
  // ---------------------------------------------------------------------------

  datatype Subscriber = Subscriber(name: string, email: string)

  datatype SubscribeResponse = InvalidRequest | EmailRequired | AlreadySubscribed | Subscribed

  /** Some subscriber's e-mail equals `email` ignoring case (`email__iexact`). */
  predicate IsSubscribed(subs: seq<Subscriber>, email: string)
  {
    exists k :: 0 <= k < |subs| && EqualsIgnoreCase(subs[k].email, email)
  }

  /**
   `subscribe_newsletter`: method, non-empty stripped e-mail and not yet
   subscribed are checked in that order; only success adds a subscriber,
   exactly one, named after the stripped name or `Subscriber`. The outcome
   of sending the welcome mail (`mailSent`) does not change the answer.
   Missing form fields are passed as `""`, as `POST.get(..., '')` does.
   */
  function SubscribeNewsletter(subs: seq<Subscriber>, isPost: bool, email: string, name: string, mailSent: bool)
    : (r: (SubscribeResponse, seq<Subscriber>))
    ensures r.0 != Subscribed ==> r.1 == subs
    ensures !isPost ==> r.0 == InvalidRequest
    ensures isPost && Strip(email, Whitespace) == "" ==> r.0 == EmailRequired
    ensures isPost && Strip(email, Whitespace) != "" && IsSubscribed(subs, Strip(email, Whitespace)) ==>
      r.0 == AlreadySubscribed
    ensures r.0 == Subscribed <==>
      isPost && Strip(email, Whitespace) != "" && !IsSubscribed(subs, Strip(email, Whitespace))
    ensures r.0 == Subscribed ==>
      var n := Strip(name, Whitespace);
      r.1 == subs + [Subscriber(if n == "" then "Subscriber" else n, Strip(email, Whitespace))]
  {
    if !isPost then (InvalidRequest, subs)
    else
      var e := Strip(email, Whitespace);
      var n := if Strip(name, Whitespace) == "" then "Subscriber" else Strip(name, Whitespace);
      if e == "" then (EmailRequired, subs)
      else if IsSubscribed(subs, e) then (AlreadySubscribed, subs)
      else (Subscribed, subs + [Subscriber(n, e)])
  }

  /** After a successful subscription the address is subscribed, so the same
      request a second time is refused and changes nothing. */
  lemma SubscribeTwice(subs: seq<Subscriber>, email: string, name: string, m1: bool, m2: bool)
    requires SubscribeNewsletter(subs, true, email, name, m1).0 == Subscribed
    ensures var after := SubscribeNewsletter(subs, true, email, name, m1).1;
            SubscribeNewsletter(after, true, email, name, m2) == (AlreadySubscribed, after)
  {
    var after := SubscribeNewsletter(subs, true, email, name, m1).1;
    var e := Strip(email, Whitespace);
    assert after[|subs|].email == e;
    assert IsSubscribed(after, e);
  }

  datatype User = User(isAuthenticated: bool, isStaff: bool)

  datatype NewsletterResponse =
    | NotPost          // JSON failure: invalid request
    | Forbidden        // HTTP 403
    | MissingFields    // subject or message empty
    | NoSubscribers
    | Sent(recipients: nat)
    | SendFailed

  /**
   `send_custom_newsletter`: the guards in order (method, staff login,
   non-empty stripped subject and message, at least one subscriber), then
   the broadcast to every subscriber, whose outcome is `sendOk`.
   */
  function SendCustomNewsletter(isPost: bool, user: User, subject: string, message: string,
                                subs: seq<Subscriber>, sendOk: bool): (r: NewsletterResponse)
    ensures r == NotPost <==> !isPost
    ensures r == Forbidden <==> isPost && !(user.isAuthenticated && user.isStaff)
    ensures r == MissingFields <==>
      isPost && user.isAuthenticated && user.isStaff &&
      (Strip(subject, Whitespace) == "" || Strip(message, Whitespace) == "")
    ensures r == NoSubscribers <==>
      isPost && user.isAuthenticated && user.isStaff &&
      Strip(subject, Whitespace) != "" && Strip(message, Whitespace) != "" && |subs| == 0
    ensures r.Sent? ==> sendOk && r.recipients == |subs| && |subs| > 0
    ensures r == SendFailed ==> !sendOk
  {
    if !isPost then NotPost
    else if !user.isAuthenticated || !user.isStaff then Forbidden
    else if Strip(subject, Whitespace) == "" || Strip(message, Whitespace) == "" then MissingFields
    else if |subs| == 0 then NoSubscribers
    else if sendOk then Sent(|subs|)
    else SendFailed
  }
}
